=== FILE: README.md ===
# Labrite level engine in Dafny

Labrite is an Android sliding-block puzzle. The player sits on a 10 x 10 grid
whose outer ring is wall. A swipe slides the player in one direction until the
next cell is outside the grid or a wall. The goal is to reach the target cell
(width - 2, height - 2) from the start cell (1, 1) within a move budget.
This project models the engine behind that game and proves properties of the
model. The engine has three parts.

- The view (`GameView.java`):
  - the slide rule (`calculateNewPosition`, `isValidPosition`);
  - the breadth-first minimum-moves search (`calculateMinMoves`);
  - level generation (`generateLevel` and the steps it calls);
  - the preparation loop of `startLevel`;
  - the play state that `movePlayer` and `onTouchEvent` update.
- The activity (`MainActivity.java`): the move budget per level, the level
  counter, and the monotone reached-level / high-score pair.
- The glue between the two (`MainActivity.startLevel` starting a level in the
  view).

Modules, one per component:

- `Board`: grid, cells, walls, start and target, and the frame predicates
  used throughout (ring walled, ends open, changes confined to the interior).
- `Resolver`: the slide rule.
- `Validator`: the path search. `IsMinMoves` is the shortest-path
  specification. `MinMoves` is the search, proved to meet it exactly.
- `Generator`: generation. `Math.random()` is an explicit stream `rand`, and
  every step returns how many draws it consumed.
- `Level`: the preparation loop. The clock is a parameter `elapsed`.
- `Play`: the view's play state as pure transitions over a `Game` value,
  and the invariant every run of events keeps.
- `Progress`: the activity's counters.
- `Session`: launching a level, and advancing after a win.
- `StaleOrigin`: the generator as written, on the first round after a win (see
  Findings).

Thresholds and policies the model keeps exactly as the code has them:

- The anti-two-move loop retries while a layout needs fewer than 4 slides
  (GameView.java:481), but `startLevel` accepts a layout at 3
  (GameView.java:411). On levels up to 8 the two edge blockers rule out
  every route of at most two slides on grids at least 6 x 6, so there the
  threshold of 3 turns down only unsolvable layouts.
- When nothing is accepted, the last generated layout is kept anyway, with
  a reported minimum of 4 and a budget of max(maxMoves, 6)
  (GameView.java:417-419). The code never checks that this layout is
  solvable. On levels up to 8 with grids at least 6 x 6 it never is:
  `Level.StartLevel` proves that there a layout is turned down only when
  no sequence of slides reaches the target at all. So on those levels the
  fallback hands the player a layout that cannot be won, while reporting
  that it takes 4 slides.
- The anti-two-move loop does not clear the grid between its rounds, so
  scattered walls accumulate. The model does the same: after n rounds a
  cell is a wall exactly when it is not re-opened and is a blocker, was a
  wall before the loop, or was kept by one of the n scatters.

## Model

| member | source | states |
|---|---|---|
| Board.RingKept | app/src/main/java/com/example/labrite/GameView.java:446-454 | edits confined to the interior keep the wall ring stamped by `generateLevel` |
| Board.IsValid | app/src/main/java/com/example/labrite/GameView.java:383-387 | a cell is valid exactly when it is inside the grid and not a wall |
| Resolver.Slide | app/src/main/java/com/example/labrite/GameView.java:352-387 | the stop cell lies a non-negative distance ahead on the swipe's line, and the cell just beyond it is out of bounds or a wall |
| Resolver.SlidePathValid | app/src/main/java/com/example/labrite/GameView.java:356-378 | every cell the slide passes through, the stop cell included, is in bounds and open |
| Resolver.SlideBounded | app/src/main/java/com/example/labrite/GameView.java:356-378 | the slide loop runs at most height steps vertically, at most width steps horizontally, so at most max(width, height) |
| Resolver.SlideLands | app/src/main/java/com/example/labrite/GameView.java:373-380 | a slide either stays put or ends on a valid cell |
| Resolver.SlideStopsAt | app/src/main/java/com/example/labrite/GameView.java:352-387 | a slide stops after exactly n steps if and only if those n cells are valid and the next is not |
| Resolver.SlideBlockedStays | app/src/main/java/com/example/labrite/GameView.java:373-377 | the slide returns its start cell if and only if the first step is invalid |
| Resolver.SlideIdempotent | app/src/main/java/com/example/labrite/GameView.java:352-381 | sliding again in the same direction from the stop cell returns the same cell |
| Resolver.SlideKeepsCrossAxis | app/src/main/java/com/example/labrite/GameView.java:358-371 | UP and DOWN keep x, LEFT and RIGHT keep y |
| Resolver.OpenGridTwoSlides | app/src/main/java/com/example/labrite/GameView.java:476-478 | on the ring-only 10 x 10 grid, RIGHT from (1, 1) stops at (8, 1) and DOWN from there stops at the target (8, 8): the two-move solution the edge blockers exist to break |
| Validator.MinMoves | app/src/main/java/com/example/labrite/GameView.java:596-627 | the result is the exact minimum number of slides from the start cell to the target, over all slide sequences, or -1 exactly when none reaches it; 0 when they coincide; at most width * height nodes are dequeued |
| Validator.Expand | app/src/main/java/com/example/labrite/GameView.java:613-622 | after the direction loop every slide out of the dequeued cell ends on a visited cell, and each newly visited cell was enqueued one slide further |
| Validator.Visit | app/src/main/java/com/example/labrite/GameView.java:615-621 | a valid unvisited slide result is marked and enqueued with moves + 1; otherwise nothing changes |
| Validator.Found | app/src/main/java/com/example/labrite/GameView.java:608-611 | the moves of the first dequeued target node are the minimum, and fewer than width * height nodes were dequeued before it |
| Validator.Exhausted | app/src/main/java/com/example/labrite/GameView.java:625-626 | a drained queue without the target means no slide sequence reaches it |
| Validator.MinMovesAtTarget | app/src/main/java/com/example/labrite/GameView.java:609-610 | a search that starts on the target reports 0 |
| Validator.MinMovesMeets | app/src/main/java/com/example/labrite/GameView.java:581 | the stopping test `m >= k && m != -1` holds exactly when the target is reachable and every path needs at least k slides |
| Validator.MinMovesUnique | app/src/main/java/com/example/labrite/GameView.java:596-627 | two searches of the same layout agree |
| Generator.Scale | app/src/main/java/com/example/labrite/GameView.java:564-565 | `(int) (Math.random() * n)` lies in [0, n) |
| Generator.RequiredMovesRange | app/src/main/java/com/example/labrite/GameView.java:462-469 | the required count is 4 + level / 2 up to level 8 and 8 from then on; the cap of 9 never binds |
| Generator.RequiredMovesMonotone | app/src/main/java/com/example/labrite/GameView.java:462-469 | a later level never requires fewer slides |
| Generator.ClearAndStamp | app/src/main/java/com/example/labrite/GameView.java:439-454 | afterwards the walls are exactly the outer ring |
| Generator.StampedShape | app/src/main/java/com/example/labrite/GameView.java:446-454 | a freshly stamped grid has its ring walled and start and target open |
| Generator.Pick | app/src/main/java/com/example/labrite/GameView.java:564-565 | a scattered cell lies in x in [1, width - 2], y in [1, height - 2] |
| Generator.ScatteredAvoids | app/src/main/java/com/example/labrite/GameView.java:563-573 | scattered cells lie in the interior and are never the start or the target |
| Generator.ScatterWalls | app/src/main/java/com/example/labrite/GameView.java:560-574 | a cell is a wall afterwards exactly when it was one before or was picked by one of the min(3 * level, 20) non-skipped iterations; two draws per iteration |
| Generator.ScatterOne | app/src/main/java/com/example/labrite/GameView.java:564-572 | one iteration draws x then y and walls the cell unless it is the start or the target |
| Generator.ScatterConfined | app/src/main/java/com/example/labrite/GameView.java:560-574 | the scatter only adds walls, only in the interior, and leaves start and target as they were |
| Generator.PlaceEdgeBlockers | app/src/main/java/com/example/labrite/GameView.java:484-498 | a cell is a wall afterwards exactly when it is not re-cleared and is a blocker or was a wall; the changes lie inside the ring and start and target end open |
| Generator.EdgeBlockersBreakTwoMoves | app/src/main/java/com/example/labrite/GameView.java:484-498 | on grids at least 6 x 6 the top and left blockers survive the clearing, and no sequence of at most two slides leads from the start to the target |
| Generator.BlockedLayoutNeedsThree | app/src/main/java/com/example/labrite/GameView.java:477-479 | after the blockers the search from the start reports -1 or at least 3 |
| Generator.AvoidTwoMoveLayouts | app/src/main/java/com/example/labrite/GameView.java:472-482 | the result is exactly the layout after `attempts` rounds (`AfterRounds`: blockers and surviving walls and every round's scattered cells, minus the re-opened cells); every round before the last measured below 4 or -1 from `from`; between 1 and 40 rounds, and stopping early means the last measurement is at least 4; round i starts at draw `RoundStart(level, next, i)`; changes stay inside the ring, start and target stay open; the two edge blockers stand, so on grids at least 6 x 6 no route of at most two slides leads from the start to the target |
| Generator.AntiTwoMoveAgain | app/src/main/java/com/example/labrite/GameView.java:474-481 | a further round on a layout measured below 4: the result is the layout after one more round, and the record of short rounds grows by that layout |
| Generator.RoundsFirst | app/src/main/java/com/example/labrite/GameView.java:475-478 | the first round on the loop's input is the layout after one round |
| Generator.RoundsStep | app/src/main/java/com/example/labrite/GameView.java:474-481 | a round on the layout after n rounds, with the draws that follow, is the layout after n + 1 rounds: rounds compose because scatters and blockers depend only on the grid's dimensions |
| Generator.RoundsUnique | app/src/main/java/com/example/labrite/GameView.java:474-481 | the layout after n rounds is determined by the input and the draws |
| Generator.ShortStep | app/src/main/java/com/example/labrite/GameView.java:481 | a layout that measured below 4 extends the record of short rounds |
| Generator.ScatteredShape | app/src/main/java/com/example/labrite/GameView.java:563-573 | a scatter picks the same cells on any grid of the same dimensions |
| Generator.RoundComposes | app/src/main/java/com/example/labrite/GameView.java:475-478 | scattering and then placing the blockers is one round in the sense of `RoundOf` |
| Generator.RoundStartClosed | app/src/main/java/com/example/labrite/GameView.java:560-574 | round i of the loop starts after i rounds of 2 * max(min(3 * level, 20), 0) draws |
| Generator.AntiTwoMoveRound | app/src/main/java/com/example/labrite/GameView.java:475-478 | after one round a cell is a wall exactly when it is not one of the re-opened cells and is a blocker, was a wall, or was picked by this round's scatter; changes stay inside the ring, start and target end open, the two edge blockers stand, and the round consumes two draws per scatter iteration |
| Generator.BlockersBreakTwoMoves | app/src/main/java/com/example/labrite/GameView.java:484-498 | with the top and left blockers walls, a grid at least 6 x 6 has no route of at most two slides from the start to the target |
| Generator.BlockersKept | app/src/main/java/com/example/labrite/GameView.java:584-589 | adding walls never removes the edge blockers |
| Generator.NoTwoSlideNeedsThree | app/src/main/java/com/example/labrite/GameView.java:405-411 | without a route of at most two slides, the exact minimum is -1 or at least 3, so the 3-slide acceptance rejects only unsolvable layouts |
| Generator.EscalationRound | app/src/main/java/com/example/labrite/GameView.java:579-589 | one round stops exactly when the measurement meets the requirement, and then changes nothing; otherwise the layout did not meet it, the drawn cell becomes a wall and no other cell changes, and the round is added to the record of failed rounds |
| Generator.Spot | app/src/main/java/com/example/labrite/GameView.java:585-586 | an escalation cell lies in x in [2, width - 3], y in [2, height - 3] |
| Generator.SpotNeverReserved | app/src/main/java/com/example/labrite/GameView.java:587 | the escalation's start and target checks never fire |
| Generator.EnsureMinMoves | app/src/main/java/com/example/labrite/GameView.java:577-594 | the result is exactly the input with every cell drawn in the rounds that ran walled (`Escalated`); every round that ran measured short of the requirement; so walls are only added, at most one per round, two cells inside the grid; at most maxAttempts rounds, and stopping early means the layout needs the required count; a layout that already needs it is returned untouched; the final measurement is exact |
| Generator.EscalatedBounds | app/src/main/java/com/example/labrite/GameView.java:584-589 | escalating only adds walls, only two cells inside the grid, at most one per round, and only on drawn cells |
| Generator.EscalatedStep | app/src/main/java/com/example/labrite/GameView.java:584-589 | walling the next drawn cell extends n rounds of escalation to n + 1 |
| Generator.FailedStep | app/src/main/java/com/example/labrite/GameView.java:581 | a layout that did not meet the requirement extends the record of failed rounds |
| Generator.WallIfOpen | app/src/main/java/com/example/labrite/GameView.java:585-589 | afterwards the drawn cell is a wall and every other cell is as before; the drawn cell lies two cells inside the grid |
| Generator.GenerateLevelPattern | app/src/main/java/com/example/labrite/GameView.java:460-470 | the tier's steps change only the interior and keep start and target open; unless the escalation budget (120 or 150) ran out, the layout needs the tier's required count; on tiers up to 8 the edge blockers stand, so grids at least 6 x 6 have no route of at most two slides |
| Generator.EndsKept | app/src/main/java/com/example/labrite/GameView.java:587 | changes two cells inside the grid leave start and target open |
| Generator.GenerateLevel | app/src/main/java/com/example/labrite/GameView.java:438-458 | ring walled, start and target open, the measurement exact, and the required count met unless the escalation ran out; on levels up to 8 and grids at least 6 x 6, no route of at most two slides |
| Generator.GenerateFromStart | app/src/main/java/com/example/labrite/GameView.java:438-458 | the generation measuring from the start cell: unless the escalation ran out, the level needs the tier's required count from the start; on levels up to 8 and grids at least 6 x 6 the exact minimum is -1 or at least 3 |
| Level.StartLevel | app/src/main/java/com/example/labrite/GameView.java:400-419 | accepted exactly when the kept layout needs at least 3 slides, with budget max(maxMoves, min + 2); otherwise a reported minimum of 4 and budget max(maxMoves, 6), after 60 failures or the 700 ms ceiling; ring walled and ends open either way; on levels up to 8 and grids at least 6 x 6, falling back means the last layout measured cannot be solved |
| Level.Attempt | app/src/main/java/com/example/labrite/GameView.java:405-410 | one round yields a ring-walled layout with open ends and its exact minimum from the start cell, which on levels up to 8 and grids at least 6 x 6 is -1 or at least 3 |
| StaleOrigin.AntiTwoMoveAfterWin | app/src/main/java/com/example/labrite/GameView.java:472-482 | measured from the target, every round reads 0 and all 40 rounds run |
| StaleOrigin.GenerateAfterWin | app/src/main/java/com/example/labrite/GameView.java:405-410 | generation on the first round after a win reads 0 and spends the whole escalation budget |
| Play.Initial | app/src/main/java/com/example/labrite/GameView.java:115-117 | the view as created: all cells open, the player on (1, 1), no budget and no flag set |
| Play.InitialBeginSound | app/src/main/java/com/example/labrite/GameView.java:34-38 | the view as created is outside the play-state invariant (in play with 0 moves), and the first half of `startLevel` brings it inside |
| Play.Move | app/src/main/java/com/example/labrite/GameView.java:251-282 | an ignored swipe changes nothing; an accepted one moves the player to the slide result, spends exactly one move, starts the animation, completes on the target, and otherwise ends the game when no move is left |
| Play.Swipe | app/src/main/java/com/example/labrite/GameView.java:210-213 | once the level is completed or over, swipes change nothing |
| Play.FinishAnimation | app/src/main/java/com/example/labrite/GameView.java:329 | only the animation flag drops |
| Play.BeginLevel | app/src/main/java/com/example/labrite/GameView.java:391-394 | both end flags cleared and preparation started, everything else kept |
| Play.LevelReady | app/src/main/java/com/example/labrite/GameView.java:420-426 | the new layout, the player on the start cell, the new budget, preparation over |
| Play.MoveIgnoredIff | app/src/main/java/com/example/labrite/GameView.java:251-258 | a move changes nothing exactly when preparing, animating, or the first cell in the swipe's direction is invalid |
| Play.SwipeSound | app/src/main/java/com/example/labrite/GameView.java:262-280 | a swipe keeps the player on an open cell, never sets both end flags, and never takes the budget below 0 |
| Play.ReadySound | app/src/main/java/com/example/labrite/GameView.java:420-426 | a posted level with open ends and a positive budget leaves a sound state |
| Play.RunSound | app/src/main/java/com/example/labrite/GameView.java:251-282 | from a sound state, every run of swipes, animation ends and level starts keeps the player on an open cell, the budget non-negative, and the two end flags exclusive |
| Play.OpenGridWinsInTwo | app/src/main/java/com/example/labrite/GameView.java:269-280 | on the open grid RIGHT then DOWN completes the level with two moves spent, and the target check wins even on the last move |
| Progress.MaxMovesForLevel | app/src/main/java/com/example/labrite/MainActivity.java:218-221 | at least 5, 15 - level up to level 10, and 5 from level 10 on |
| Progress.MaxMovesNonIncreasing | app/src/main/java/com/example/labrite/MainActivity.java:218-221 | later levels never get a larger budget |
| Progress.UpdateHighScore | app/src/main/java/com/example/labrite/MainActivity.java:327-336 | the score never falls, reaches the level reached, and changes exactly when the level reached exceeds it |
| Progress.RecordReached | app/src/main/java/com/example/labrite/MainActivity.java:241-244 | the level reached becomes max(reached, current); when the current level was beyond it, the score becomes max(score, current), and otherwise nothing changes |
| Progress.StartGame | app/src/main/java/com/example/labrite/MainActivity.java:206-208 | level 1, nothing reached, budget 14, score kept |
| Progress.NextLevel | app/src/main/java/com/example/labrite/MainActivity.java:239-248 | the level reached becomes max(reached, current), the score max(score, current) when the current level was beyond the reached one, the counter rises by exactly one, and the next level gets its budget |
| Progress.GameOver | app/src/main/java/com/example/labrite/MainActivity.java:252-255 | the level reached becomes max(reached, current), the score max(score, current) when the current level was beyond the reached one, and the counter and budget stay |
| Progress.StartConsistent | app/src/main/java/com/example/labrite/MainActivity.java:338-342 | a restart with a non-negative score is consistent |
| Progress.ApplyConsistent | app/src/main/java/com/example/labrite/MainActivity.java:239-255 | every event keeps the level reached at most the score and the counter, and never lowers the score |
| Progress.RunConsistent | app/src/main/java/com/example/labrite/MainActivity.java:239-255 | over any run of events the score never decreases and the bookkeeping stays consistent |
| Progress.ClimbReaches | app/src/main/java/com/example/labrite/MainActivity.java:239-248 | completing n levels from a fresh start leaves level n + 1 current, n reached, and the score max(old, n) |
| Progress.ClimbThenLose | app/src/main/java/com/example/labrite/MainActivity.java:250-255 | start, n wins, then a loss records n + 1 as reached and makes the score max(old, n + 1) |
| Session.LaunchLevel | app/src/main/java/com/example/labrite/MainActivity.java:211-216 | from any view state on a playable grid, the level's budget goes to the view and the counters are otherwise kept; the player then stands on the start of a layout with open ends, with at least that budget (so at least 5 moves) and two beyond the reported minimum, and the play-state invariant holds |
| Session.LaunchGame | app/src/main/java/com/example/labrite/MainActivity.java:199-209 | a new game on the view as created is on level 1 with nothing reached and the score kept, budget 14, and the first level in play with the invariant holding |
| Session.AdvanceLevel | app/src/main/java/com/example/labrite/MainActivity.java:169-178 | after a win, the counter rises by one, the score covers the level won, and the next level is in play with its budget |

## Left out

- Rendering (`onDraw`), the swipe-direction decoding of `onTouchEvent`, and the easing and timing of the animation thread: these are UI. A swipe is modelled as an already-decoded direction. The animation is one event that clears the animating flag.
- Threads and `post`: the preparation thread writes the shared wall array in place. The model collapses it into one `Ready` event with the finished layout. Races between the threads are not modelled.
- Play.Apply: a `Ready` event acts only while a level is being prepared. The posted runnable applies unconditionally, and overlapping `startLevel` calls could deliver a stale one; that interleaving is not modelled.
- `Math.random()` is an abstract stream of reals in [0, 1) with exact real arithmetic, not IEEE doubles. Every property holds for every stream; the distribution is not modelled.
- `System.currentTimeMillis()` becomes the parameter `elapsed`. The model does not assume the clock is monotone.
- SharedPreferences persistence (`loadHighScore`, the writes in `updateHighScore`), sound, vibration, toasts, dialogs, menus, theming and `SettingsActivity`: these are I/O and UI. The score is modelled in memory from whatever value is loaded.
- The auto-advance delay and `restartLevel` cancelling it: UI scheduling.
- `generateSimpleLevel`, `generateCrossLevel`, `generateSpiralLevel` and `generateMazeLevel`: nothing calls them.
- Progress.NextLevel: does not model the 32-bit wrap-around of `currentLevel++`. It would need about two billion completed levels.
- Generator.ScatterWalls: does not model the 32-bit wrap-around of `level * 3` in `Math.min(level * 3, 20)`. From level 715,827,883 on, the product wraps and the scatter can run no iterations at all, while `Generator.ObstacleCount` stays at 20.
- Play.Move: `movesLeft` is an unbounded integer. `Play.RunSound` shows it never goes below 0 on a sound run, so 32-bit wrap-around cannot arise.
- Level.StartLevel: the first round of the preparation loop is modelled with the search measuring from the start cell, as intended. The code as written reads the leftover player position (see Findings).
- The grid is any playable size (at least 5 x 5; the two-move result needs 6 x 6). The game uses 10 x 10.

## Findings

| source | as written | input that shows it | evidently intended | confidence | as-written member | corrected member |
|---|---|---|---|---|---|---|
| app/src/main/java/com/example/labrite/GameView.java:405-410 | `generateLevel(level)` runs before `playerPos` is reset to (1, 1) at line 408. The searches inside generation (lines 479 and 580) start from `playerPos`, which after a win is still the target. | Complete any level, then the next `startLevel` runs its first round. Every search inside generation reports 0. All 40 anti-two-move rounds run and keep adding walls. The escalation spends its whole budget of 120 or 150. The layout is then accepted whenever it needs at least 3 slides from the start, even when that is below the tier's required 4 + level / 2. After a loss the searches start wherever the player stopped, which skews them the same way. | The searches during generation measure from the start cell, so that a level is escalated until it needs the tier's count of slides from where the player begins. | medium; not executed | StaleOrigin.GenerateAfterWin | Generator.GenerateFromStart |

=== FILE: board.dfy ===
/**
  The grid model of the level engine: a fixed-size rectangle of wall flags,
  indexed `walls[y][x]` as in `GameView`, with the player's start and the
  target fixed at (1, 1) and (width - 2, height - 2).
 */
module Board {

  /** The four swipe directions, declared in the order the path search expands them. */
  datatype Dir = Up | Down | Left | Right

  /** `Direction.values()`: the fixed expansion order. */
  const AllDirs: seq<Dir> := [Up, Down, Left, Right]

  /** A cell coordinate. It may lie outside the grid while a slide probes past an edge. */
  datatype Pos = Pos(x: int, y: int)

  /** `walls[y][x]` is true when the cell (x, y) is impassable. */
  datatype Grid = Grid(width: int, height: int, walls: seq<seq<bool>>)

  function Max(a: int, b: int): int { if a >= b then a else b }

  function Min(a: int, b: int): int { if a <= b then a else b }

  /** The wall field really is `height` rows of `width` cells. */
  predicate WellFormed(g: Grid) {
    && g.width >= 0
    && |g.walls| == g.height
    && forall y :: 0 <= y < g.height ==> |g.walls[y]| == g.width
  }

  /** The grids the generator works on: the game uses 10 x 10, and every
      generation step needs at least 5 cells each way. */
  predicate Playable(g: Grid) {
    WellFormed(g) && g.width >= 5 && g.height >= 5
  }

  predicate InBounds(g: Grid, p: Pos) {
    0 <= p.x < g.width && 0 <= p.y < g.height
  }

  function Wall(g: Grid, p: Pos): bool
    requires WellFormed(g) && InBounds(g, p)
  {
    g.walls[p.y][p.x]
  }

  /** A cell the player may stand on: inside the grid and not a wall. */
  predicate IsValid(g: Grid, p: Pos)
    requires WellFormed(g)
  {
    InBounds(g, p) && !Wall(g, p)
  }

  /** Where the player starts every level. */
  function Start(g: Grid): Pos { Pos(1, 1) }

  /** The cell the player must reach. */
  function Target(g: Grid): Pos { Pos(g.width - 2, g.height - 2) }

  /** The outer ring: row 0, row height - 1, column 0 and column width - 1. */
  predicate OnRing(g: Grid, p: Pos) {
    p.x == 0 || p.y == 0 || p.x == g.width - 1 || p.y == g.height - 1
  }

  /** Every cell of the outer ring is a wall. */
  ghost predicate RingWalled(g: Grid)
    requires WellFormed(g)
  {
    forall p :: InBounds(g, p) && OnRing(g, p) ==> Wall(g, p)
  }

  /** Start and target are both open. */
  predicate EndsOpen(g: Grid)
    requires Playable(g)
  {
    !Wall(g, Start(g)) && !Wall(g, Target(g))
  }

  /** Two grids of the same dimensions. */
  predicate SameShape(g: Grid, g': Grid) {
    WellFormed(g) && WellFormed(g') && g.width == g'.width && g.height == g'.height
  }

  /** Walls only ever get added going from `g` to `g'`. */
  ghost predicate Grows(g: Grid, g': Grid)
    requires SameShape(g, g')
  {
    forall p :: InBounds(g, p) && Wall(g, p) ==> Wall(g', p)
  }

  /** The cell is at least `m` cells away from every edge: x in [m, width - 1 - m], y in [m, height - 1 - m]. */
  predicate Inside(g: Grid, p: Pos, m: int) {
    m <= p.x <= g.width - 1 - m && m <= p.y <= g.height - 1 - m
  }

  /** Every cell where `g` and `g'` differ lies at least `m` cells inside the grid. */
  ghost predicate ChangesWithin(g: Grid, g': Grid, m: int)
    requires SameShape(g, g')
  {
    forall p :: InBounds(g, p) && Wall(g', p) != Wall(g, p) ==> Inside(g, p, m)
  }

  /** Changes confined to the interior leave a walled ring walled. */
  lemma RingKept(g: Grid, g': Grid, m: int)
    requires SameShape(g, g') && m >= 1 && ChangesWithin(g, g', m) && RingWalled(g)
    ensures RingWalled(g')
  {
    forall p | InBounds(g', p) && OnRing(g', p)
      ensures Wall(g', p)
    {
      assert !Inside(g, p, m);
    }
  }

  /** Two confined changes in a row are confined to the looser of the two margins. */
  lemma ChangesChain(a: Grid, b: Grid, c: Grid, m: int, n: int)
    requires SameShape(a, b) && SameShape(b, c)
    requires ChangesWithin(a, b, m) && ChangesWithin(b, c, n)
    ensures SameShape(a, c) && ChangesWithin(a, c, Min(m, n))
  {
  }

  /** Two grids of one shape with the same wall in every cell are the same grid. */
  lemma SameWallsSame(a: Grid, b: Grid)
    requires SameShape(a, b)
    requires forall p :: InBounds(a, p) ==> Wall(a, p) == Wall(b, p)
    ensures a == b
  {
    forall y | 0 <= y < a.height
      ensures a.walls[y] == b.walls[y]
    {
      forall x | 0 <= x < a.width
        ensures a.walls[y][x] == b.walls[y][x]
      {
        assert InBounds(a, Pos(x, y));
      }
    }
  }

  /** The grid whose only walls are the outer ring. */
  ghost predicate BorderOnly(g: Grid)
    requires WellFormed(g)
  {
    forall p :: InBounds(g, p) ==> (Wall(g, p) <==> OnRing(g, p))
  }

  /** `walls[p.y][p.x] = b`. */
  function SetWall(g: Grid, p: Pos, b: bool): (g': Grid)
    requires WellFormed(g) && InBounds(g, p)
    ensures SameShape(g, g')
    ensures Wall(g', p) == b
    ensures forall q :: InBounds(g, q) && q != p ==> Wall(g', q) == Wall(g, q)
  {
    g.(walls := g.walls[p.y := g.walls[p.y][p.x := b]])
  }

  /** The `width * height` cells of the grid. */
  function Cells(g: Grid): set<Pos> {
    set x, y | 0 <= x < g.width && 0 <= y < g.height :: Pos(x, y)
  }

  function RowCells(w: int, y: int): set<Pos> {
    set x | 0 <= x < w :: Pos(x, y)
  }

  function BandCells(w: int, n: int): set<Pos> {
    set x, y | 0 <= x < w && 0 <= y < n :: Pos(x, y)
  }

  lemma {:induction false} RowCellsCount(w: nat, y: int)
    ensures |RowCells(w, y)| == w
  {
    if w > 0 {
      RowCellsCount(w - 1, y);
      assert RowCells(w, y) == RowCells(w - 1, y) + {Pos(w - 1, y)};
    } else {
      assert RowCells(w, y) == {};
    }
  }

  lemma {:induction false} BandCellsCount(w: nat, n: nat)
    ensures |BandCells(w, n)| == w * n
  {
    if n > 0 {
      BandCellsCount(w, n - 1);
      RowCellsCount(w, n - 1);
      BandSplit(w, n);
      assert w * n == w * (n - 1) + w;
    } else {
      assert BandCells(w, n) == {};
    }
  }

  lemma BandSplit(w: nat, n: nat)
    requires n > 0
    ensures BandCells(w, n) == BandCells(w, n - 1) + RowCells(w, n - 1)
    ensures BandCells(w, n - 1) !! RowCells(w, n - 1)
  {
  }

  /** The grid has exactly `width * height` cells; this bounds the path search. */
  lemma CellCount(g: Grid)
    requires WellFormed(g)
    ensures |Cells(g)| == g.width * g.height
  {
    BandCellsCount(g.width, g.height);
    assert Cells(g) == BandCells(g.width, g.height);
  }

  lemma InCells(g: Grid, p: Pos)
    ensures p in Cells(g) <==> InBounds(g, p)
  {
    if InBounds(g, p) {
      assert p == Pos(p.x, p.y);
    }
  }
}

=== FILE: generator.dfy ===
/**
  Level generation (`generateLevel` and the steps it calls): stamp the
  border, scatter random walls, block the two-slide corridors along the
  edges, and escalate with extra walls until the path search reports enough
  slides.

  Randomness is an explicit stream: `rand(k)` is the k-th result of
  `Math.random()`, a real in [0, 1). Each operation takes the index of the
  next unused draw and returns the index after the last draw it consumed, so
  every property below holds for every stream.
 */
module Generator {
  import opened Board
  import opened Resolver
  import opened Validator

  /** A result of `Math.random()`. */
  type Unit = r: real | 0.0 <= r < 1.0

  /** The stream of `Math.random()` results. */
  type Random = nat -> Unit

  /** `(int) (Math.random() * n)`: the cast truncates, which is the floor for the non-negative product. */
  function Scale(u: Unit, n: int): (r: int)
    requires n > 0
    ensures 0 <= r < n
  {
    var x := u * (n as real);
    assert 0.0 <= x < n as real by {
      assert u * (n as real) < 1.0 * (n as real);
    }
    x.Floor
  }

  /** Java's `a / b` for a positive divisor: the quotient truncates toward zero. */
  function JavaDiv(a: int, b: int): int
    requires b > 0
  {
    if a >= 0 then a / b else -((-a) / b)
  }

  /** `Math.min(level * 3, 20)`: how many random walls one scatter draws. */
  function ObstacleCount(level: int): int {
    Min(level * 3, 20)
  }

  /** The minimum number of slides the escalation asks for on a tier. */
  function RequiredMoves(level: int): int {
    if level <= 8 then Min(4 + JavaDiv(level, 2), 9) else 8
  }

  /** How many walls the escalation may try to add on a tier. */
  function EscalationBudget(level: int): int {
    if level <= 8 then 120 else 150
  }

  /** How many anti-two-move layouts are tried before giving up on one. */
  const AntiTwoMoveAttempts := 40

  /** The required count grows with the level from 4 to 8; the cap of 9 never binds. */
  lemma RequiredMovesRange(level: int)
    requires level >= 1
    ensures 4 <= RequiredMoves(level) <= 8
    ensures level <= 8 ==> RequiredMoves(level) == 4 + level / 2
    ensures level >= 8 ==> RequiredMoves(level) == 8
  {
  }

  /** A later level never asks for fewer slides than an earlier one. */
  lemma RequiredMovesMonotone(a: int, b: int)
    requires 1 <= a <= b
    ensures RequiredMoves(a) <= RequiredMoves(b)
  {
  }

  // ----- generateLevel: clear and stamp the border -----

  /**
    The first half of `generateLevel`: clear every cell, then wall rows 0 and
    height - 1 and columns 0 and width - 1. Afterwards the walls are exactly
    the outer ring.
   */
  method ClearAndStamp(g: Grid) returns (g': Grid)
    requires Playable(g)
    ensures SameShape(g, g') && BorderOnly(g')
  {
    g' := g;
    var y := 0;
    while y < g.height
      invariant 0 <= y <= g.height && SameShape(g, g')
      invariant forall p :: InBounds(g, p) && p.y < y ==> !Wall(g', p)
    {
      var x := 0;
      while x < g.width
        invariant 0 <= x <= g.width && SameShape(g, g')
        invariant forall p :: InBounds(g, p) && (p.y < y || (p.y == y && p.x < x)) ==> !Wall(g', p)
      {
        g' := SetWall(g', Pos(x, y), false);
        x := x + 1;
      }
      y := y + 1;
    }
    var x := 0;
    while x < g.width
      invariant 0 <= x <= g.width && SameShape(g, g')
      invariant forall p :: InBounds(g, p) ==> (Wall(g', p) <==> (p.y == 0 || p.y == g.height - 1) && p.x < x)
    {
      g' := SetWall(g', Pos(x, 0), true);
      g' := SetWall(g', Pos(x, g.height - 1), true);
      x := x + 1;
    }
    y := 0;
    while y < g.height
      invariant 0 <= y <= g.height && SameShape(g, g')
      invariant forall p :: InBounds(g, p) ==>
                  (Wall(g', p) <==> p.y == 0 || p.y == g.height - 1 || ((p.x == 0 || p.x == g.width - 1) && p.y < y))
    {
      g' := SetWall(g', Pos(0, y), true);
      g' := SetWall(g', Pos(g.width - 1, y), true);
      y := y + 1;
    }
  }

  /** A freshly stamped grid has its ring walled and its start and target open. */
  lemma StampedShape(g: Grid)
    requires Playable(g) && BorderOnly(g)
    ensures RingWalled(g) && EndsOpen(g)
  {
    assert !OnRing(g, Start(g)) && !OnRing(g, Target(g));
  }

  // ----- generateRandomLevel -----

  /** The cells no generation step may wall: `(x == 1 && y == 1) || (x == width - 2 && y == height - 2)`. */
  predicate Reserved(g: Grid, p: Pos) {
    p == Start(g) || p == Target(g)
  }

  /** The cell drawn from `rand(k)` and `rand(k + 1)`: x in [1, width - 2], y in [1, height - 2]. */
  function Pick(g: Grid, rand: Random, k: nat): (p: Pos)
    requires Playable(g)
    ensures Inside(g, p, 1)
  {
    Pos(Scale(rand(k), g.width - 2) + 1, Scale(rand(k + 1), g.height - 2) + 1)
  }

  /** The cells the first `n` iterations of a scatter starting at draw `next` wall: every pick but the reserved ones. */
  function Scattered(g: Grid, rand: Random, next: nat, n: int): set<Pos>
    requires Playable(g)
    decreases n
  {
    if n <= 0 then {}
    else
      var p := Pick(g, rand, next + 2 * (n - 1));
      Scattered(g, rand, next, n - 1) + (if Reserved(g, p) then {} else {p})
  }

  /** Scattered walls lie in the interior and never on the start or the target. */
  lemma {:induction false} ScatteredAvoids(g: Grid, rand: Random, next: nat, n: int)
    requires Playable(g)
    ensures forall p :: p in Scattered(g, rand, next, n) ==> Inside(g, p, 1) && !Reserved(g, p)
    decreases n
  {
    if n > 0 {
      ScatteredAvoids(g, rand, next, n - 1);
    }
  }

  /**
    `generateRandomLevel`: `ObstacleCount(level)` times, draw a cell of the
    interior and wall it unless it is the start or the target. Both
    coordinates are drawn before the check, so every iteration consumes two
    draws. Walls already present stay, and nothing else changes.
   */
  method ScatterWalls(g: Grid, level: int, rand: Random, next: nat) returns (g': Grid, next': nat)
    requires Playable(g)
    ensures SameShape(g, g')
    ensures forall p :: InBounds(g, p) ==> (Wall(g', p) <==> Wall(g, p) || p in Scattered(g, rand, next, ObstacleCount(level)))
    ensures next' == next + 2 * Max(ObstacleCount(level), 0)
  {
    var count := ObstacleCount(level);
    g' := g;
    var i := 0;
    while i < count
      invariant 0 <= i && (i <= count || i == 0)
      invariant SameShape(g, g')
      invariant ScatteredInto(g, g', rand, next, i)
    {
      g' := ScatterOne(g, g', rand, next, i);
      i := i + 1;
    }
    next' := next + 2 * i;
  }

  /** `g'` is `g` with the first `n` scattered cells walled. */
  ghost predicate ScatteredInto(g: Grid, g': Grid, rand: Random, next: nat, n: int)
    requires Playable(g)
  {
    SameShape(g, g') && forall p :: InBounds(g, p) ==> (Wall(g', p) <==> Wall(g, p) || p in Scattered(g, rand, next, n))
  }

  /** One more scatter iteration adds its pick, unless the pick is reserved. */
  lemma ScatterStep(g: Grid, g1: Grid, g2: Grid, rand: Random, next: nat, i: nat, x: int, y: int)
    requires Playable(g) && SameShape(g, g1)
    requires ScatteredInto(g, g1, rand, next, i)
    requires Pos(x, y) == Pick(g, rand, next + 2 * i)
    requires g2 == if (x == 1 && y == 1) || (x == g.width - 2 && y == g.height - 2) then g1 else SetWall(g1, Pos(x, y), true)
    ensures ScatteredInto(g, g2, rand, next, i + 1)
  {
    var q := Pick(g, rand, next + 2 * i);
    assert Scattered(g, rand, next, i + 1) == Scattered(g, rand, next, i) + (if Reserved(g, q) then {} else {q});
  }

  /** One iteration of `generateRandomLevel`'s loop: draw x, then y, and wall the cell unless it is reserved. */
  method ScatterOne(g: Grid, g1: Grid, rand: Random, next: nat, i: nat) returns (g2: Grid)
    requires Playable(g) && ScatteredInto(g, g1, rand, next, i)
    ensures ScatteredInto(g, g2, rand, next, i + 1)
  {
    var x := Scale(rand(next + 2 * i), g.width - 2) + 1;
    var y := Scale(rand(next + 2 * i + 1), g.height - 2) + 1;
    g2 := g1;
    if !((x == 1 && y == 1) || (x == g.width - 2 && y == g.height - 2)) {
      g2 := SetWall(g1, Pos(x, y), true);
    }
    ScatterStep(g, g1, g2, rand, next, i, x, y);
  }

  /** A scatter only adds walls, only in the interior, and leaves the start and the target as they were. */
  lemma ScatterConfined(g: Grid, g': Grid, rand: Random, next: nat, n: int)
    requires Playable(g) && SameShape(g, g')
    requires forall p :: InBounds(g, p) ==> (Wall(g', p) <==> Wall(g, p) || p in Scattered(g, rand, next, n))
    ensures Grows(g, g') && ChangesWithin(g, g', 1)
    ensures Wall(g', Start(g)) == Wall(g, Start(g)) && Wall(g', Target(g)) == Wall(g, Target(g))
    ensures EndsOpen(g) ==> EndsOpen(g')
  {
    ScatteredAvoids(g, rand, next, n);
  }

  // ----- placeEdgeBlockers -----

  /** The four blocker cells, in the order `placeEdgeBlockers` walls them. */
  function Blockers(g: Grid): seq<Pos> {
    [ Pos(Max(2, g.width / 2), 1), Pos(1, Max(2, g.height / 2)),
      Pos(g.width - 2, Max(2, g.height / 2)), Pos(Max(2, g.width / 2), g.height - 2) ]
  }

  /** The cells `placeEdgeBlockers` opens afterwards: start, target and their inner neighbours. */
  function Cleared(g: Grid): seq<Pos> {
    [ Start(g), Target(g), Pos(2, 1), Pos(1, 2), Pos(g.width - 3, g.height - 2), Pos(g.width - 2, g.height - 3) ]
  }

  /** The blockers and the re-opened cells depend only on the dimensions. */
  lemma FixedCellsShape(a: Grid, b: Grid)
    requires a.width == b.width && a.height == b.height
    ensures Cleared(a) == Cleared(b) && Blockers(a) == Blockers(b)
  {
  }

  /** Writes `b` into every cell of `ps`, in order. */
  function SetAll(g: Grid, ps: seq<Pos>, b: bool): (g': Grid)
    requires WellFormed(g) && forall i :: 0 <= i < |ps| ==> InBounds(g, ps[i])
    ensures SameShape(g, g')
    ensures forall q :: InBounds(g, q) ==> Wall(g', q) == (if q in ps then b else Wall(g, q))
    decreases |ps|
  {
    if |ps| == 0 then g
    else SetWall(SetAll(g, ps[..|ps| - 1], b), ps[|ps| - 1], b)
  }

  /**
    `placeEdgeBlockers`: wall the four blockers, then open the start, the
    target and their inner neighbours. A cell ends up a wall exactly when it
    is not re-opened and either is a blocker or was a wall already; the
    opening wins, so on a 5-wide grid the top blocker (2, 1) is undone.
   */
  function PlaceEdgeBlockers(g: Grid): (g': Grid)
    requires Playable(g)
    ensures SameShape(g, g')
    ensures forall p :: InBounds(g, p) ==> (Wall(g', p) <==> p !in Cleared(g) && (p in Blockers(g) || Wall(g, p)))
    ensures ChangesWithin(g, g', 1) && EndsOpen(g')
  {
    EdgeCellsInside(g);
    var b := SetAll(g, Blockers(g), true);
    SetAll(b, Cleared(g), false)
  }

  /** Blockers and re-opened cells all lie in the interior. */
  lemma EdgeCellsInside(g: Grid)
    requires Playable(g)
    ensures forall p :: p in Blockers(g) ==> Inside(g, p, 1)
    ensures forall p :: p in Cleared(g) ==> Inside(g, p, 1)
    ensures forall i :: 0 <= i < |Blockers(g)| ==> InBounds(g, Blockers(g)[i])
    ensures forall i :: 0 <= i < |Cleared(g)| ==> InBounds(g, Cleared(g)[i])
    ensures Start(g) in Cleared(g) && Target(g) in Cleared(g)
  {
    assert Cleared(g)[0] == Start(g) && Cleared(g)[1] == Target(g);
  }

  /**
    On grids at least 6 cells each way the top and left blockers survive the
    re-opening, and no sequence of at most two slides then leads from the
    start to the target: the first slide along row 1 or column 1 stops short
    of the blocker, and one more slide can change only one coordinate.
   */
  lemma EdgeBlockersBreakTwoMoves(g: Grid)
    requires Playable(g) && g.width >= 6 && g.height >= 6
    ensures Wall(PlaceEdgeBlockers(g), Blockers(g)[0]) && Wall(PlaceEdgeBlockers(g), Blockers(g)[1])
    ensures forall ds: seq<Dir> :: |ds| <= 2 ==> Follow(PlaceEdgeBlockers(g), Start(g), ds) != Target(g)
  {
    var g' := PlaceEdgeBlockers(g);
    assert Blockers(g)[0] in Blockers(g) && Blockers(g)[0] !in Cleared(g);
    assert Blockers(g)[1] in Blockers(g) && Blockers(g)[1] !in Cleared(g);
    TwoSlidesBlocked(g');
  }

  /** The first slide from the start stays off the target's row and column when (bx, 1) and (1, by) are walls. */
  lemma FirstSlideShort(g: Grid, d: Dir)
    requires WellFormed(g) && g.width >= 6 && g.height >= 6
    requires Wall(g, Pos(Max(2, g.width / 2), 1)) && Wall(g, Pos(1, Max(2, g.height / 2)))
    ensures Slide(g, Start(g), d).x < g.width - 2 && Slide(g, Start(g), d).y < g.height - 2
  {
    SlidePathValid(g, Start(g), d);
    match d
    case Right => assert !IsValid(g, Advance(Start(g), d, Max(2, g.width / 2) - 1));
    case Down => assert !IsValid(g, Advance(Start(g), d, Max(2, g.height / 2) - 1));
    case Up =>
    case Left =>
  }

  lemma TwoSlidesBlocked(g: Grid)
    requires WellFormed(g) && g.width >= 6 && g.height >= 6
    requires Wall(g, Pos(Max(2, g.width / 2), 1)) && Wall(g, Pos(1, Max(2, g.height / 2)))
    ensures forall ds: seq<Dir> :: |ds| <= 2 ==> Follow(g, Start(g), ds) != Target(g)
  {
    forall ds: seq<Dir> | |ds| <= 2
      ensures Follow(g, Start(g), ds) != Target(g)
    {
      if |ds| == 1 {
        assert Follow(g, Start(g), ds) == Slide(g, Start(g), ds[0]);
        FirstSlideShort(g, ds[0]);
      } else if |ds| == 2 {
        var p := Slide(g, Start(g), ds[0]);
        assert ds[..1][..0] == [];
        assert Follow(g, Start(g), ds[..1]) == p;
        FirstSlideShort(g, ds[0]);
        SlideKeepsCrossAxis(g, p, ds[1]);
      }
    }
  }

  // ----- generateRandomWithAntiTwoMove -----

  /** The draws one anti-two-move round consumes: two per scatter iteration. */
  function RoundDraws(level: int): nat {
    2 * Max(ObstacleCount(level), 0)
  }

  /** The first draw of round `i` (counting from 0) of a run whose first draw is `next`. */
  function RoundStart(level: int, next: nat, i: nat): nat
    decreases i
  {
    if i == 0 then next else RoundStart(level, next, i - 1) + RoundDraws(level)
  }

  /** Round `i` starts after `i` rounds' worth of draws. */
  lemma {:induction false} RoundStartClosed(level: int, next: nat, i: nat)
    ensures RoundStart(level, next, i) == next + 2 * Max(ObstacleCount(level), 0) * i
  {
    if i > 0 {
      RoundStartClosed(level, next, i - 1);
      MulSucc(2 * Max(ObstacleCount(level), 0), i - 1);
    }
  }

  lemma MulSucc(a: int, b: int)
    ensures a * (b + 1) == a * b + a
  {
  }

  /** Cell `p` after one anti-two-move round on `g`: a wall exactly when not re-opened and a blocker, a wall already, or scattered. */
  ghost predicate RoundCell(g: Grid, g': Grid, p: Pos, level: int, rand: Random, next: nat)
    requires Playable(g) && SameShape(g, g') && InBounds(g, p)
  {
    Wall(g', p) <==> p !in Cleared(g) && (p in Blockers(g) || Wall(g, p) || p in Scattered(g, rand, next, ObstacleCount(level)))
  }

  /** `g'` is one anti-two-move round applied to `g`, its scatter starting at draw `next`. */
  ghost predicate RoundOf(g: Grid, g': Grid, level: int, rand: Random, next: nat) {
    && Playable(g) && SameShape(g, g')
    && forall p {:trigger RoundCell(g, g', p, level, rand, next)} :: InBounds(g, p) ==> RoundCell(g, g', p, level, rand, next)
  }

  /** Scattering keeps the same cells on any grid of the same dimensions. */
  lemma {:induction false} ScatteredShape(a: Grid, b: Grid, rand: Random, next: nat, n: int)
    requires Playable(a) && Playable(b) && a.width == b.width && a.height == b.height
    ensures Scattered(a, rand, next, n) == Scattered(b, rand, next, n)
    decreases n
  {
    if n > 0 {
      ScatteredShape(a, b, rand, next, n - 1);
    }
  }

  /** The cells the scatters of the first `n` rounds of a run keep, round `i` starting at draw `RoundStart(level, next, i)`. */
  ghost function ScatteredRounds(g: Grid, level: int, rand: Random, next: nat, n: nat): set<Pos>
    requires Playable(g)
    decreases n
  {
    if n == 0 then {}
    else ScatteredRounds(g, level, rand, next, n - 1) + Scattered(g, rand, RoundStart(level, next, n - 1), ObstacleCount(level))
  }

  /**
    `g'` is the layout after `n` rounds of the loop on `g`: a cell is a wall
    exactly when it is not one of the re-opened cells and is a blocker, was
    a wall in `g`, or was kept by one of the `n` scatters.
   */
  ghost predicate AfterRounds(g: Grid, g': Grid, level: int, rand: Random, next: nat, n: nat)
    requires Playable(g)
  {
    && SameShape(g, g')
    && forall p {:trigger AfterCell(g, g', p, level, rand, next, n)} :: InBounds(g, p) ==> AfterCell(g, g', p, level, rand, next, n)
  }

  /** Cell `p` of the layout after `n` rounds, as `AfterRounds` describes it. */
  ghost predicate AfterCell(g: Grid, g': Grid, p: Pos, level: int, rand: Random, next: nat, n: nat)
    requires Playable(g) && SameShape(g, g') && InBounds(g, p)
  {
    Wall(g', p) <==> p !in Cleared(g) && (p in Blockers(g) || Wall(g, p) || p in ScatteredRounds(g, level, rand, next, n))
  }

  /** The first round of a run is a round on `g` with the first draws. */
  lemma RoundsFirst(g: Grid, g1: Grid, level: int, rand: Random, next: nat)
    requires Playable(g) && RoundOf(g, g1, level, rand, next)
    ensures AfterRounds(g, g1, level, rand, next, 1)
  {
    forall p | InBounds(g, p)
      ensures AfterCell(g, g1, p, level, rand, next, 1)
    {
      assert RoundCell(g, g1, p, level, rand, next);
    }
  }

  /** A round on the layout after `n` rounds, with the draws that follow, is the layout after `n + 1` rounds. */
  lemma RoundsStep(g: Grid, g1: Grid, g2: Grid, level: int, rand: Random, next: nat, n: nat)
    requires Playable(g) && AfterRounds(g, g1, level, rand, next, n)
    requires RoundOf(g1, g2, level, rand, RoundStart(level, next, n))
    ensures AfterRounds(g, g2, level, rand, next, n + 1)
  {
    var k := RoundStart(level, next, n);
    ScatteredShape(g1, g, rand, k, ObstacleCount(level));
    FixedCellsShape(g1, g);
    assert ScatteredRounds(g, level, rand, next, n + 1)
        == ScatteredRounds(g, level, rand, next, n) + Scattered(g, rand, k, ObstacleCount(level));
    forall p | InBounds(g, p)
      ensures AfterCell(g, g2, p, level, rand, next, n + 1)
    {
      assert InBounds(g1, p) && AfterCell(g, g1, p, level, rand, next, n);
      assert RoundCell(g1, g2, p, level, rand, k);
      assert p in ScatteredRounds(g, level, rand, next, n + 1)
         <==> p in ScatteredRounds(g, level, rand, next, n) || p in Scattered(g, rand, k, ObstacleCount(level));
    }
  }

  /** The layout after `n` rounds is determined by the layout the run started from and the draws. */
  lemma RoundsUnique(g: Grid, a: Grid, b: Grid, level: int, rand: Random, next: nat, n: nat)
    requires Playable(g) && AfterRounds(g, a, level, rand, next, n) && AfterRounds(g, b, level, rand, next, n)
    ensures a == b
  {
    forall p | InBounds(a, p)
      ensures Wall(a, p) == Wall(b, p)
    {
      assert AfterCell(g, a, p, level, rand, next, n) && AfterCell(g, b, p, level, rand, next, n);
    }
    SameWallsSame(a, b);
  }

  /** Every round of a run before round `n` measured fewer than 4 slides from `from`, or none. */
  ghost predicate ShortRounds(g: Grid, level: int, rand: Random, next: nat, n: int, from: Pos)
    requires Playable(g)
  {
    forall i: nat, h: Grid :: 1 <= i < n && AfterRounds(g, h, level, rand, next, i) ==> !Needs(h, from, Target(g), 4)
  }

  lemma ShortStep(g: Grid, g1: Grid, level: int, rand: Random, next: nat, n: nat, from: Pos)
    requires Playable(g) && AfterRounds(g, g1, level, rand, next, n) && ShortRounds(g, level, rand, next, n, from)
    requires !Needs(g1, from, Target(g1), 4)
    ensures ShortRounds(g, level, rand, next, n + 1, from)
  {
    forall i: nat, h: Grid | 1 <= i < n + 1 && AfterRounds(g, h, level, rand, next, i)
      ensures !Needs(h, from, Target(g), 4)
    {
      if i == n {
        RoundsUnique(g, g1, h, level, rand, next, n);
      }
    }
  }

  /**
    `generateRandomWithAntiTwoMove`: scatter walls and place the edge
    blockers, then measure the layout from `from`, repeating while the
    measure is below 4 or -1 and fewer than 40 rounds have run. The grid is
    not cleared between rounds, so the walls of rejected rounds stay: the
    result is the layout after `attempts` rounds, and every round before the
    last measured below 4. The search starts wherever the player was left
    (`from`), not necessarily at the start cell.
   */
  method AvoidTwoMoveLayouts(g: Grid, level: int, from: Pos, rand: Random, next: nat)
    returns (g': Grid, m: int, attempts: int, next': nat)
    requires Playable(g) && InBounds(g, from)
    ensures SameShape(g, g') && ChangesWithin(g, g', 1) && EndsOpen(g')
    ensures IsMinMoves(g', from, Target(g'), m)
    ensures 1 <= attempts <= AntiTwoMoveAttempts
    ensures attempts < AntiTwoMoveAttempts ==> m >= 4
    ensures next' == RoundStart(level, next, attempts)
    ensures AfterRounds(g, g', level, rand, next, attempts)
    ensures ShortRounds(g, level, rand, next, attempts, from)
    ensures BlockersStand(g')
    ensures g.width >= 6 && g.height >= 6 ==> NoTwoSlideRoute(g')
  {
    ghost var polls: nat;
    g', next' := AntiTwoMoveRound(g, g, level, rand, next);
    RoundsFirst(g, g', level, rand, next);
    m, polls := MinMoves(g', from, Target(g'));
    attempts := 1;
    while (m < 4 || m == -1) && attempts < AntiTwoMoveAttempts
      invariant 1 <= attempts <= AntiTwoMoveAttempts
      invariant SameShape(g, g') && ChangesWithin(g, g', 1) && EndsOpen(g')
      invariant IsMinMoves(g', from, Target(g'), m)
      invariant next' == RoundStart(level, next, attempts)
      invariant AfterRounds(g, g', level, rand, next, attempts) && ShortRounds(g, level, rand, next, attempts, from)
      invariant BlockersStand(g')
    {
      MinMovesMeets(g', from, Target(g'), m, 4);
      g', next' := AntiTwoMoveAgain(g, g', level, from, rand, next, attempts, next');
      m, polls := MinMoves(g', from, Target(g'));
      attempts := attempts + 1;
    }
    BlockersBreakTwoMoves(g');
  }

  /** The loop going on after a layout measured below 4: one more round on the last layout. */
  method AntiTwoMoveAgain(g: Grid, g1: Grid, level: int, from: Pos, rand: Random, next: nat, attempts: nat, next1: nat)
    returns (g2: Grid, next2: nat)
    requires Playable(g) && InBounds(g, from) && SameShape(g, g1) && ChangesWithin(g, g1, 1)
    requires next1 == RoundStart(level, next, attempts)
    requires AfterRounds(g, g1, level, rand, next, attempts) && ShortRounds(g, level, rand, next, attempts, from)
    requires !Needs(g1, from, Target(g1), 4)
    ensures SameShape(g, g2) && ChangesWithin(g, g2, 1) && EndsOpen(g2) && BlockersStand(g2)
    ensures next2 == RoundStart(level, next, attempts + 1)
    ensures AfterRounds(g, g2, level, rand, next, attempts + 1) && ShortRounds(g, level, rand, next, attempts + 1, from)
  {
    ShortStep(g, g1, level, rand, next, attempts, from);
    g2, next2 := AntiTwoMoveRound(g, g1, level, rand, next1);
    RoundsStep(g, g1, g2, level, rand, next, attempts);
  }

  /**
    One round of the anti-two-move loop before the measurement: scatter,
    then place the blockers. A cell ends up a wall exactly when it is not
    re-opened and is a blocker, was a wall, or was scattered.
   */
  method AntiTwoMoveRound(g0: Grid, g: Grid, level: int, rand: Random, next: nat) returns (g': Grid, next': nat)
    requires Playable(g0) && SameShape(g0, g) && ChangesWithin(g0, g, 1)
    ensures RoundOf(g, g', level, rand, next)
    ensures SameShape(g0, g') && ChangesWithin(g0, g', 1) && EndsOpen(g')
    ensures next' == next + 2 * Max(ObstacleCount(level), 0)
    ensures BlockersStand(g')
  {
    var s;
    s, next' := ScatterWalls(g, level, rand, next);
    ScatterConfined(g, s, rand, next, ObstacleCount(level));
    g' := PlaceEdgeBlockers(s);
    if s.width >= 6 && s.height >= 6 {
      EdgeBlockersBreakTwoMoves(s);
    }
    ChangesChain(g, s, g', 1, 1);
    ChangesChain(g0, g, g', 1, 1);
    RoundComposes(g, s, level, rand, next);
  }

  /** Placing the blockers on the scattered layout of `g` completes the round. */
  lemma RoundComposes(g: Grid, s: Grid, level: int, rand: Random, next: nat)
    requires Playable(g) && SameShape(g, s)
    requires forall p :: InBounds(g, p) ==> (Wall(s, p) <==> Wall(g, p) || p in Scattered(g, rand, next, ObstacleCount(level)))
    ensures RoundOf(g, PlaceEdgeBlockers(s), level, rand, next)
  {
    var b := PlaceEdgeBlockers(s);
    FixedCellsShape(s, g);
    forall p | InBounds(g, p)
      ensures RoundCell(g, b, p, level, rand, next)
    {
    }
  }

  /**
    Measured from the start cell on a grid at least 6 cells each way, a
    layout that just had its edge blockers placed needs at least 3 slides
    or cannot be solved at all.
   */
  lemma BlockedLayoutNeedsThree(g: Grid, m: int)
    requires Playable(g) && g.width >= 6 && g.height >= 6
    requires IsMinMoves(PlaceEdgeBlockers(g), Start(g), Target(g), m)
    ensures m == -1 || m >= 3
  {
    EdgeBlockersBreakTwoMoves(g);
    if m != -1 {
      var ds :| |ds| == m && Follow(PlaceEdgeBlockers(g), Start(g), ds) == Target(g);
    }
  }

  /**
    On grids at least 6 cells each way, the top blocker
    (max(2, width / 2), 1) and the left blocker (1, max(2, height / 2)) are
    walls.
   */
  ghost predicate BlockersStand(g: Grid)
    requires Playable(g)
  {
    g.width >= 6 && g.height >= 6 ==> Wall(g, Pos(Max(2, g.width / 2), 1)) && Wall(g, Pos(1, Max(2, g.height / 2)))
  }

  /** No sequence of at most two slides leads from the start to the target. */
  ghost predicate NoTwoSlideRoute(g: Grid)
    requires WellFormed(g)
  {
    forall ds: seq<Dir> :: |ds| <= 2 ==> Follow(g, Start(g), ds) != Target(g)
  }

  /** Standing blockers rule out every route of one or two slides. */
  lemma BlockersBreakTwoMoves(g: Grid)
    requires Playable(g) && BlockersStand(g)
    ensures g.width >= 6 && g.height >= 6 ==> NoTwoSlideRoute(g)
  {
    if g.width >= 6 && g.height >= 6 {
      TwoSlidesBlocked(g);
    }
  }

  /** Walls only added keep the blockers standing. */
  lemma BlockersKept(g: Grid, g': Grid)
    requires Playable(g) && SameShape(g, g') && Grows(g, g') && BlockersStand(g)
    ensures BlockersStand(g')
  {
    if g.width >= 6 && g.height >= 6 {
      assert InBounds(g, Pos(Max(2, g.width / 2), 1)) && InBounds(g, Pos(1, Max(2, g.height / 2)));
    }
  }

  /** Without a route of at most two slides, the exact minimum is -1 or at least 3. */
  lemma NoTwoSlideNeedsThree(g: Grid, m: int)
    requires WellFormed(g) && NoTwoSlideRoute(g) && IsMinMoves(g, Start(g), Target(g), m)
    ensures m == -1 || m >= 3
  {
    if m != -1 {
      var ds :| |ds| == m && Follow(g, Start(g), ds) == Target(g);
    }
  }

  // ----- ensureMinMoves -----

  /** The cells walled in `g'` that were open in `g`. */
  ghost function Added(g: Grid, g': Grid): set<Pos>
    requires SameShape(g, g')
  {
    set p | p in Cells(g) && InBounds(g, p) && Wall(g', p) && !Wall(g, p)
  }

  lemma AddedStep(g: Grid, g1: Grid, g2: Grid, p: Pos)
    requires SameShape(g, g1) && SameShape(g1, g2) && InBounds(g, p)
    requires forall q :: InBounds(g, q) && q != p ==> Wall(g2, q) == Wall(g1, q)
    ensures SameShape(g, g2) && |Added(g, g2)| <= |Added(g, g1)| + 1
  {
    assert Added(g, g2) <= Added(g, g1) + {p};
    SubsetCard(Added(g, g2), Added(g, g1) + {p});
  }

  /** The cells the escalation may wall: x in [2, width - 3], y in [2, height - 3]. */
  function Spot(g: Grid, rand: Random, k: nat): (p: Pos)
    requires Playable(g)
    ensures Inside(g, p, 2)
  {
    Pos(Scale(rand(k), g.width - 4) + 2, Scale(rand(k + 1), g.height - 4) + 2)
  }

  /** The cells the first `n` escalation rounds starting at draw `next` draw, two draws per round. */
  function Spots(g: Grid, rand: Random, next: nat, n: int): set<Pos>
    requires Playable(g)
    decreases n
  {
    if n <= 0 then {} else Spots(g, rand, next, n - 1) + {Spot(g, rand, next + 2 * (n - 1))}
  }

  /** The drawn cells lie two cells inside the grid, and `n` rounds draw at most `n` distinct cells. */
  lemma {:induction false} SpotsFacts(g: Grid, rand: Random, next: nat, n: nat)
    requires Playable(g)
    ensures |Spots(g, rand, next, n)| <= n
    ensures forall p :: p in Spots(g, rand, next, n) ==> Inside(g, p, 2) && InBounds(g, p)
  {
    if n > 0 {
      SpotsFacts(g, rand, next, n - 1);
    }
  }

  /**
    `ensureMinMoves`: while fewer than `maxAttempts` rounds have run, measure
    the layout from `from` and stop as soon as it needs at least `required`
    slides; otherwise draw a cell with x in [2, width - 3] and y in
    [2, height - 3] and wall it if it is open. After the last round the
    layout is measured once more. The result is the layout with every drawn
    cell walled, and every round that drew measured a layout short of the
    requirement; the escalation returns untouched when the layout already
    meets it.
   */
  method EnsureMinMoves(g: Grid, required: int, maxAttempts: int, from: Pos, rand: Random, next: nat)
    returns (g': Grid, m: int, attempts: int, next': nat)
    requires Playable(g) && InBounds(g, from)
    ensures Escalated(g, g', rand, next, attempts)
    ensures Grows(g, g') && ChangesWithin(g, g', 2) && |Added(g, g')| <= attempts
    ensures IsMinMoves(g', from, Target(g'), m)
    ensures 0 <= attempts && (attempts <= maxAttempts || attempts == 0)
    ensures next' == next + 2 * attempts
    ensures attempts < maxAttempts ==> m >= required && m != -1
    ensures FailedRounds(g, rand, next, attempts, from, required)
    ensures Needs(g, from, Target(g), required) ==> g' == g && attempts == 0
  {
    g', attempts, next' := g, 0, next;
    ghost var polls: nat;
    while attempts < maxAttempts
      invariant 0 <= attempts && (attempts <= maxAttempts || attempts == 0)
      invariant Escalated(g, g', rand, next, attempts)
      invariant next' == next + 2 * attempts
      invariant FailedRounds(g, rand, next, attempts, from, required)
      invariant Needs(g, from, Target(g), required) ==> g' == g && attempts == 0
    {
      var stop;
      stop, m, g' := EscalationRound(g, g', required, from, rand, next, attempts);
      if stop {
        EscalatedBounds(g, g', rand, next, attempts);
        return;
      }
      attempts := attempts + 1;
      next' := next' + 2;
    }
    m, polls := MinMoves(g', from, Target(g'));
    EscalatedBounds(g, g', rand, next, attempts);
  }

  /**
    One pass of `ensureMinMoves`' loop: measure, stop when the layout needs
    `required` slides, and otherwise wall the drawn cell if it is open.
   */
  method EscalationRound(g: Grid, g1: Grid, required: int, from: Pos, rand: Random, next: nat, n: nat)
    returns (stop: bool, m: int, g2: Grid)
    requires Playable(g) && InBounds(g, from) && Escalated(g, g1, rand, next, n)
    requires FailedRounds(g, rand, next, n, from, required)
    ensures stop ==> g2 == g1 && IsMinMoves(g1, from, Target(g1), m) && m >= required && m != -1
    ensures !stop ==> !Needs(g1, from, Target(g1), required) && SameShape(g1, g2)
    ensures !stop ==> forall q :: InBounds(g1, q) ==> (Wall(g2, q) <==> Wall(g1, q) || q == Spot(g, rand, next + 2 * n))
    ensures !stop ==> Escalated(g, g2, rand, next, n + 1) && FailedRounds(g, rand, next, n + 1, from, required)
  {
    ghost var polls: nat;
    m, polls := MinMoves(g1, from, Target(g1));
    if m >= required && m != -1 {
      return true, m, g1;
    }
    MinMovesMeets(g1, from, Target(g1), m, required);
    stop := false;
    g2 := WallIfOpen(g, g1, rand, next + 2 * n);
    EscalatedStep(g, g1, g2, rand, next, n, next + 2 * n);
    FailedStep(g, g1, rand, next, n, from, required);
  }

  /**
    The first `n` escalation rounds from draw `next` turned `g` into `g'`:
    a cell is a wall in `g'` exactly when it was one in `g` or one of those
    rounds drew it.
   */
  ghost predicate Escalated(g: Grid, g': Grid, rand: Random, next: nat, n: int)
    requires Playable(g)
  {
    && SameShape(g, g')
    && forall p :: InBounds(g, p) ==> (Wall(g', p) <==> Wall(g, p) || p in Spots(g, rand, next, n))
  }

  /** Escalating adds walls only, only two cells inside the grid, at most one per round, and only on drawn cells. */
  lemma EscalatedBounds(g: Grid, g': Grid, rand: Random, next: nat, n: nat)
    requires Playable(g) && Escalated(g, g', rand, next, n)
    ensures Grows(g, g') && ChangesWithin(g, g', 2)
    ensures Added(g, g') <= Spots(g, rand, next, n) && |Added(g, g')| <= n
  {
    SpotsFacts(g, rand, next, n);
    SubsetCard(Added(g, g'), Spots(g, rand, next, n));
  }

  /** The layout after `n` rounds is determined by the layout it started from and the draws. */
  lemma EscalatedUnique(g: Grid, a: Grid, b: Grid, rand: Random, next: nat, n: int)
    requires Playable(g) && Escalated(g, a, rand, next, n) && Escalated(g, b, rand, next, n)
    ensures a == b
  {
    SameWallsSame(a, b);
  }

  lemma EscalatedStep(g: Grid, g1: Grid, g2: Grid, rand: Random, next: nat, n: nat, k: nat)
    requires Playable(g) && Escalated(g, g1, rand, next, n) && k == next + 2 * n
    requires SameShape(g1, g2)
    requires forall q :: InBounds(g1, q) ==> (Wall(g2, q) <==> Wall(g1, q) || q == Spot(g, rand, k))
    ensures Escalated(g, g2, rand, next, n + 1)
  {
    assert Spots(g, rand, next, n + 1) == Spots(g, rand, next, n) + {Spot(g, rand, k)};
  }

  /** Each of the first `n` rounds measured a layout short of `required` slides from `from`. */
  ghost predicate FailedRounds(g: Grid, rand: Random, next: nat, n: int, from: Pos, required: int)
    requires Playable(g)
  {
    forall i: nat, h: Grid :: i < n && Escalated(g, h, rand, next, i) ==> !Needs(h, from, Target(g), required)
  }

  lemma FailedStep(g: Grid, g1: Grid, rand: Random, next: nat, n: nat, from: Pos, required: int)
    requires Playable(g) && Escalated(g, g1, rand, next, n) && FailedRounds(g, rand, next, n, from, required)
    requires !Needs(g1, from, Target(g1), required)
    ensures FailedRounds(g, rand, next, n + 1, from, required)
  {
    forall i: nat, h: Grid | i < n + 1 && Escalated(g, h, rand, next, i)
      ensures !Needs(h, from, Target(g), required)
    {
      if i == n {
        EscalatedUnique(g, g1, h, rand, next, n);
      }
    }
  }

  /**
    One escalation round after a failed measurement: draw x, then y, and
    wall the cell if it is open. The drawn cell is a wall afterwards and no
    other cell changes.
   */
  method WallIfOpen(g0: Grid, g: Grid, rand: Random, k: nat) returns (g': Grid)
    requires Playable(g0) && SameShape(g0, g)
    ensures SameShape(g, g') && Wall(g', Spot(g0, rand, k))
    ensures forall q :: InBounds(g, q) ==> (Wall(g', q) <==> Wall(g, q) || q == Spot(g0, rand, k))
    ensures Grows(g, g') && ChangesWithin(g, g', 2)
    ensures |Added(g0, g')| <= |Added(g0, g)| + 1
    ensures Added(g0, g') <= Added(g0, g) + {Spot(g0, rand, k)}
  {
    var p := Spot(g0, rand, k);
    var x, y := p.x, p.y;
    g' := g;
    if !Wall(g, Pos(x, y)) && !(x == 1 && y == 1) && !(x == g.width - 2 && y == g.height - 2) {
      g' := SetWall(g, Pos(x, y), true);
    }
    AddedStep(g0, g, g', Pos(x, y));
  }

  /** The escalation's own start and target checks never fire: its band excludes both cells. */
  lemma SpotNeverReserved(g: Grid, rand: Random, k: nat)
    requires Playable(g)
    ensures !Reserved(g, Spot(g, rand, k))
  {
  }

  // ----- generateLevelPattern and generateLevel -----

  /**
    `generateLevelPattern`: tiers up to 8 run the anti-two-move loop and then
    escalate towards `RequiredMoves(level)` with 120 rounds; later tiers
    scatter once and escalate towards 8 slides with 150 rounds. Both keep
    the changes inside the ring and leave the start and the target open.
   */
  method GenerateLevelPattern(g: Grid, level: int, from: Pos, rand: Random, next: nat)
    returns (g': Grid, m: int, escalations: int, next': nat)
    requires Playable(g) && InBounds(g, from) && EndsOpen(g)
    ensures SameShape(g, g') && ChangesWithin(g, g', 1) && EndsOpen(g')
    ensures IsMinMoves(g', from, Target(g'), m)
    ensures 0 <= escalations <= EscalationBudget(level)
    ensures escalations < EscalationBudget(level) ==> m >= RequiredMoves(level) && m != -1
    ensures level <= 8 ==> BlockersStand(g')
    ensures level <= 8 && g.width >= 6 && g.height >= 6 ==> NoTwoSlideRoute(g')
  {
    var b;
    if level <= 8 {
      var m0, tries;
      b, m0, tries, next' := AvoidTwoMoveLayouts(g, level, from, rand, next);
    } else {
      b, next' := ScatterWalls(g, level, rand, next);
      ScatterConfined(g, b, rand, next, ObstacleCount(level));
    }
    g', m, escalations, next' := EnsureMinMoves(b, RequiredMoves(level), EscalationBudget(level), from, rand, next');
    ChangesChain(g, b, g', 1, 2);
    EndsKept(b, g');
    if level <= 8 {
      BlockersKept(b, g');
      BlockersBreakTwoMoves(g');
    }
  }

  /** Changes at least two cells inside the grid cannot touch the start or the target. */
  lemma EndsKept(g: Grid, g': Grid)
    requires Playable(g) && SameShape(g, g') && EndsOpen(g) && ChangesWithin(g, g', 2)
    ensures EndsOpen(g')
  {
    assert !Inside(g, Start(g), 2) && !Inside(g, Target(g), 2);
  }

  /**
    `generateLevel`: clear and stamp the border, then fill in the tier's
    pattern. The result keeps the ring walled and the start and target open,
    and `m` is the minimum number of slides from `from` to the target; the
    escalation stops early only on a layout meeting the tier's requirement.
   */
  method GenerateLevel(g: Grid, level: int, from: Pos, rand: Random, next: nat)
    returns (g': Grid, m: int, escalations: int, next': nat)
    requires Playable(g) && InBounds(g, from)
    ensures SameShape(g, g') && RingWalled(g') && EndsOpen(g')
    ensures IsMinMoves(g', from, Target(g'), m)
    ensures 0 <= escalations <= EscalationBudget(level)
    ensures escalations < EscalationBudget(level) ==> m >= RequiredMoves(level) && m != -1
    ensures level <= 8 && g.width >= 6 && g.height >= 6 ==> NoTwoSlideRoute(g')
  {
    var b := ClearAndStamp(g);
    StampedShape(b);
    g', m, escalations, next' := GenerateLevelPattern(b, level, from, rand, next);
    RingKept(b, g', 1);
  }

  /**
    Generation measured from the start cell, as the difficulty targeting
    intends: when the escalation stops early, every way from the start to
    the target takes at least `RequiredMoves(level)` slides.
   */
  method GenerateFromStart(g: Grid, level: int, rand: Random, next: nat)
    returns (g': Grid, m: int, escalations: int, next': nat)
    requires Playable(g)
    ensures SameShape(g, g') && RingWalled(g') && EndsOpen(g')
    ensures IsMinMoves(g', Start(g'), Target(g'), m)
    ensures 0 <= escalations <= EscalationBudget(level)
    ensures escalations < EscalationBudget(level) ==> Needs(g', Start(g'), Target(g'), RequiredMoves(level))
    ensures level <= 8 && g.width >= 6 && g.height >= 6 ==> NoTwoSlideRoute(g') && (m == -1 || m >= 3)
  {
    g', m, escalations, next' := GenerateLevel(g, level, Start(g), rand, next);
    MinMovesMeets(g', Start(g'), Target(g'), m, RequiredMoves(level));
    if level <= 8 && g.width >= 6 && g.height >= 6 {
      NoTwoSlideNeedsThree(g', m);
    }
  }
}

=== FILE: level.dfy ===
/**
  Level preparation (`startLevel` minus its thread): generate layouts until
  one needs at least 3 slides from the start cell, giving up after 60
  failures or once 700 ms have passed, and derive the move budget.
 */
module Level {
  import opened Board
  import opened Validator
  import opened Generator

  /** A layout is accepted when it needs at least this many slides. */
  const AcceptThreshold := 3

  /** At most this many layouts are rejected before falling back. */
  const MaxFailures := 60

  /** The preparation stops retrying once this many milliseconds have passed. */
  const TimeCeiling := 700

  /** The minimum-moves value reported when no layout was accepted. */
  const FallbackMinMoves := 4

  /**
    What the preparation hands to the view: the layout, the minimum number of
    slides it reports, the move budget, whether a layout was accepted, and
    how many layouts were rejected.
   */
  datatype Prepared = Prepared(grid: Grid, minMoves: int, movesLeft: int, accepted: bool, failures: int)

  /**
    The preparation loop of `startLevel`. `elapsed(k)` is the time in
    milliseconds the clock shows when the loop checks it after its k-th
    rejected layout. An accepted layout gets the budget
    `max(maxMoves, minMoves + 2)`; otherwise the last layout is kept and
    reported as needing 4 slides with budget `max(maxMoves, 6)`. Either way
    the budget is at least `maxMoves` and at least two more than the
    reported minimum. The ghost `measured` is the true minimum number of
    slides of the kept layout (-1 when unsolvable).
   */
  method StartLevel(g: Grid, level: int, maxMoves: int, rand: Random, next: nat, elapsed: nat -> int)
    returns (p: Prepared, next': nat, ghost measured: int)
    requires Playable(g)
    ensures SameShape(g, p.grid) && RingWalled(p.grid) && EndsOpen(p.grid)
    ensures IsMinMoves(p.grid, Start(p.grid), Target(p.grid), measured)
    ensures p.accepted <==> measured >= AcceptThreshold
    ensures p.accepted ==> p.minMoves == measured && p.movesLeft == Max(maxMoves, measured + 2)
    ensures !p.accepted ==> p.minMoves == FallbackMinMoves && p.movesLeft == Max(maxMoves, FallbackMinMoves + 2)
    ensures p.movesLeft >= maxMoves && p.movesLeft >= p.minMoves + 2
    ensures 0 <= p.failures <= MaxFailures
    ensures p.accepted ==> p.failures < MaxFailures && InTime(elapsed, p.failures)
    ensures !p.accepted ==> && p.failures >= 1
                            && (p.failures == MaxFailures || elapsed(p.failures) >= TimeCeiling)
                            && InTime(elapsed, p.failures - 1)
    ensures level <= 8 && g.width >= 6 && g.height >= 6 && !p.accepted ==> measured == -1
  {
    var grid := g;
    var failures := 0;
    next' := next;
    while true
      invariant 0 <= failures < MaxFailures
      invariant SameShape(g, grid)
      invariant InTime(elapsed, failures)
      decreases MaxFailures - failures
    {
      var m;
      grid, m, next' := Attempt(grid, level, rand, next');
      if m >= AcceptThreshold {
        p, measured := Prepared(grid, m, Max(maxMoves, m + 2), true, failures), m;
        return;
      }
      failures := failures + 1;
      if !(elapsed(failures) < TimeCeiling && failures < MaxFailures) {
        assert InTime(elapsed, failures - 1);
        p, measured := Prepared(grid, FallbackMinMoves, Max(maxMoves, FallbackMinMoves + 2), false, failures), m;
        return;
      }
      InTimeStep(elapsed, failures - 1);
    }
  }

  /**
    One round of the preparation loop: generate a layout (measuring from the
    start cell during generation), then measure it from the start cell. On
    tiers up to 8 the edge blockers leave no route of two slides, so the
    measure is -1 or at least 3.
   */
  method Attempt(g: Grid, level: int, rand: Random, next: nat) returns (g': Grid, m: int, next': nat)
    requires Playable(g)
    ensures SameShape(g, g') && RingWalled(g') && EndsOpen(g')
    ensures IsMinMoves(g', Start(g'), Target(g'), m)
    ensures level <= 8 && g.width >= 6 && g.height >= 6 ==> m == -1 || m >= 3
  {
    var gm, escalations;
    g', gm, escalations, next' := GenerateFromStart(g, level, rand, next);
    ghost var polls;
    m, polls := MinMoves(g', Start(g'), Target(g'));
    if level <= 8 && g.width >= 6 && g.height >= 6 {
      NoTwoSlideNeedsThree(g', m);
    }
  }

  /** The clock allowed a retry after each of the first `n` rejections. */
  ghost predicate InTime(elapsed: nat -> int, n: int) {
    forall k :: 1 <= k <= n ==> elapsed(k) < TimeCeiling
  }

  lemma InTimeStep(elapsed: nat -> int, n: nat)
    requires InTime(elapsed, n) && elapsed(n + 1) < TimeCeiling
    ensures InTime(elapsed, n + 1)
  {
  }
}

=== FILE: play.dfy ===
/**
  The view's play state and its transitions: a swipe (`onTouchEvent` guarding
  `movePlayer`), the end of the move animation, and the two halves of
  `startLevel` that touch the play state.
 */
module Play {
  import opened Board
  import opened Resolver

  /** The fields of the view a move reads and writes. */
  datatype Game = Game(grid: Grid, player: Pos, movesLeft: int,
                       completed: bool, over: bool, preparing: bool, animating: bool)

  /** `movePlayer` ignores the swipe: a level is being prepared, an animation runs, or the slide goes nowhere. */
  predicate Ignored(s: Game, d: Dir)
    requires WellFormed(s.grid)
  {
    s.preparing || s.animating || Slide(s.grid, s.player, d) == s.player
  }

  /**
    `movePlayer`: an ignored swipe changes nothing. Otherwise the player
    slides, the animation starts, one move is spent, and the level is
    completed when the slide ends on the target; only when it does not and
    no move is left is the game over.
   */
  function Move(s: Game, d: Dir): (s': Game)
    requires WellFormed(s.grid)
    ensures Ignored(s, d) ==> s' == s
    ensures !Ignored(s, d) ==>
              && s'.player == Slide(s.grid, s.player, d) && s'.movesLeft == s.movesLeft - 1 && s'.animating
              && s'.grid == s.grid && !s'.preparing
              && (s'.completed <==> s.completed || s'.player == Target(s.grid))
              && (s'.over <==> s.over || (s'.player != Target(s.grid) && s'.movesLeft <= 0))
  {
    if s.preparing || s.animating then s
    else
      var p := Slide(s.grid, s.player, d);
      if p == s.player then s
      else
        var s1 := s.(player := p, movesLeft := s.movesLeft - 1, animating := true);
        if p == Target(s.grid) then s1.(completed := true)
        else if s1.movesLeft <= 0 then s1.(over := true)
        else s1
  }

  /** `onTouchEvent`: once the level is completed or over, swipes are dropped before reaching `movePlayer`. */
  function Swipe(s: Game, d: Dir): (s': Game)
    requires WellFormed(s.grid)
    ensures s.completed || s.over ==> s' == s
  {
    if s.completed || s.over then s else Move(s, d)
  }

  /** The animation thread finishing: only the animation flag drops. */
  function FinishAnimation(s: Game): (s': Game)
    ensures !s'.animating && s' == s.(animating := false)
  {
    s.(animating := false)
  }

  /** The synchronous part of `startLevel`: clear both end flags and start preparing. */
  function BeginLevel(s: Game): (s': Game)
    ensures !s'.completed && !s'.over && s'.preparing
    ensures s'.grid == s.grid && s'.player == s.player && s'.movesLeft == s.movesLeft && s'.animating == s.animating
  {
    s.(completed := false, over := false, preparing := true)
  }

  /** The end of `startLevel`: the new layout, the player back on the start cell, the budget, and preparation over. */
  function LevelReady(s: Game, grid: Grid, movesLeft: int): (s': Game)
    ensures s'.grid == grid && s'.player == Start(grid) && s'.movesLeft == movesLeft && !s'.preparing
    ensures s'.completed == s.completed && s'.over == s.over && s'.animating == s.animating
  {
    s.(grid := grid, player := Start(grid), movesLeft := movesLeft, preparing := false)
  }

  /**
    The view as `init` leaves it: every cell open, the player on (1, 1), no
    budget yet, and no flag set.
   */
  function Initial(width: nat, height: nat): (s: Game)
    ensures WellFormed(s.grid) && s.grid.width == width && s.grid.height == height
    ensures forall p :: InBounds(s.grid, p) ==> !Wall(s.grid, p)
    ensures s.player == Start(s.grid) && s.movesLeft == 0
    ensures !s.completed && !s.over && !s.preparing && !s.animating
  {
    Game(Grid(width, height, seq(height, _ => seq(width, _ => false))), Pos(1, 1), 0, false, false, false, false)
  }

  /**
    A swipe is ignored exactly when a level is being prepared, an animation
    runs, or the first cell in the swipe's direction is out of bounds or a
    wall: the slide rule's blocked case.
   */
  lemma MoveIgnoredIff(s: Game, d: Dir)
    requires WellFormed(s.grid)
    ensures Move(s, d) == s <==> s.preparing || s.animating || !IsValid(s.grid, Advance(s.player, d, 1))
  {
    SlideBlockedStays(s.grid, s.player, d);
    if !Ignored(s, d) {
      assert Move(s, d).animating != s.animating;
    }
  }

  /** The player always stands on an open cell of a well-formed grid. */
  ghost predicate OnOpenCell(s: Game) {
    WellFormed(s.grid) && IsValid(s.grid, s.player)
  }

  /**
    The play-state invariant: the player stands on an open cell, the two end
    flags are never both set nor set while a level is prepared, and a level
    in play has a move left.
   */
  ghost predicate Sound(s: Game) {
    && OnOpenCell(s)
    && !(s.completed && s.over)
    && (s.preparing ==> !s.completed && !s.over)
    && s.movesLeft >= 0
    && (!s.completed && !s.over && !s.preparing ==> s.movesLeft >= 1)
  }

  /** A swipe keeps the invariant: an accepted move lands on an open cell and sets at most one end flag. */
  lemma SwipeSound(s: Game, d: Dir)
    requires Sound(s)
    ensures Sound(Swipe(s, d))
  {
    SlideLands(s.grid, s.player, d);
  }

  /** Finishing an animation and beginning a level keep the invariant. */
  lemma HousekeepingSound(s: Game)
    requires Sound(s)
    ensures Sound(FinishAnimation(s)) && Sound(BeginLevel(s))
  {
  }

  /** A prepared level with its start open and a positive budget is sound once ready. */
  lemma ReadySound(s: Game, grid: Grid, movesLeft: int)
    requires Sound(s) && s.preparing && Playable(grid) && EndsOpen(grid) && movesLeft >= 1
    ensures Sound(LevelReady(s, grid, movesLeft))
  {
  }

  /**
    The initial view breaks the invariant, since it is in play with no move
    left; the first half of `startLevel` restores it, so every run starting
    there with `Begin` keeps it from then on.
   */
  lemma InitialBeginSound(width: nat, height: nat)
    requires width >= 2 && height >= 2
    ensures !Sound(Initial(width, height))
    ensures Sound(BeginLevel(Initial(width, height)))
  {
  }

  /**
    The events the play state reacts to. `Ready` is the posted end of a
    `startLevel` in flight, so it only acts while a level is prepared.
   */
  datatype Event = SwipeEvent(d: Dir) | AnimationDone | Begin | Ready(grid: Grid, movesLeft: int)

  /** A `Ready` event carrying a layout fit to play: its start is open and its budget positive. */
  ghost predicate FitEvent(e: Event) {
    e.Ready? ==> Playable(e.grid) && EndsOpen(e.grid) && e.movesLeft >= 1
  }

  function Apply(s: Game, e: Event): Game
    requires WellFormed(s.grid)
  {
    match e
    case SwipeEvent(d) => Swipe(s, d)
    case AnimationDone => FinishAnimation(s)
    case Begin => BeginLevel(s)
    case Ready(grid, movesLeft) => if s.preparing then LevelReady(s, grid, movesLeft) else s
  }

  /** The state after a sequence of events, stopping early should the grid ever be malformed. */
  function Run(s: Game, es: seq<Event>): Game
    decreases |es|
  {
    if |es| == 0 || !WellFormed(s.grid) then s else Run(Apply(s, es[0]), es[1..])
  }

  /** Every event fit to play keeps the invariant. */
  lemma ApplySound(s: Game, e: Event)
    requires Sound(s) && FitEvent(e)
    ensures Sound(Apply(s, e))
  {
    match e
    case SwipeEvent(d) => SwipeSound(s, d);
    case AnimationDone => HousekeepingSound(s);
    case Begin => HousekeepingSound(s);
    case Ready(grid, movesLeft) =>
      if s.preparing {
        ReadySound(s, grid, movesLeft);
      }
  }

  /**
    Every run of events from a sound state ends in a sound state: the budget
    never goes negative, the player never stands in a wall, and a level is
    never both completed and lost.
   */
  lemma {:induction false} RunSound(s: Game, es: seq<Event>)
    requires Sound(s)
    requires forall i :: 0 <= i < |es| ==> FitEvent(es[i])
    ensures Sound(Run(s, es))
    decreases |es|
  {
    if |es| > 0 {
      ApplySound(s, es[0]);
      var s1 := Apply(s, es[0]);
      assert Run(s, es) == Run(s1, es[1..]);
      forall i | 0 <= i < |es[1..]|
        ensures FitEvent(es[1..][i])
      {
        assert es[1..][i] == es[i + 1];
      }
      RunSound(s1, es[1..]);
    }
  }

  /**
    On the 10 x 10 grid walled only on its ring, RIGHT and then DOWN from the
    start completes the level with two moves spent; the target check wins
    even when those were the last two moves.
   */
  lemma OpenGridWinsInTwo(s: Game)
    requires WellFormed(s.grid) && s.grid.width == 10 && s.grid.height == 10 && BorderOnly(s.grid)
    requires s.player == Start(s.grid) && !s.preparing && !s.animating && !s.completed && !s.over
    requires s.movesLeft >= 2
    ensures var s2 := Swipe(FinishAnimation(Swipe(s, Right)), Down);
            s2.completed && !s2.over && s2.player == Target(s.grid) && s2.movesLeft == s.movesLeft - 2
  {
    OpenGridTwoSlides(s.grid);
    var s1 := Swipe(s, Right);
    assert s1.player == Pos(8, 1) && !s1.completed && !s1.over;
  }
}

=== FILE: progress.dfy ===
/**
  The progression and high-score bookkeeping of the activity: the move
  budget of each level, the level counter, the highest level reached in
  the current run, and the best such level ever recorded. Persistence of
  the pair is left out; only the in-memory values are modelled.
 */
module Progress {
  import opened Board

  /** The activity's counters. `maxMoves` is the budget handed to the view for `currentLevel`. */
  datatype Progress = Progress(currentLevel: int, maxLevelReached: int, highScore: int, maxMoves: int)

  /**
    `getMaxMovesForLevel`: 14 moves on level 1, one fewer each level, and
    never fewer than 5 (reached at level 10).
   */
  function MaxMovesForLevel(level: int): (r: int)
    ensures r >= 5
    ensures level <= 10 ==> r == 15 - level
    ensures level >= 10 ==> r == 5
  {
    Max(5, 15 - level)
  }

  /** Later levels never get a larger budget. */
  lemma MaxMovesNonIncreasing(a: int, b: int)
    requires a <= b
    ensures MaxMovesForLevel(a) >= MaxMovesForLevel(b)
  {
  }

  /**
    `updateHighScore`: the score rises to the level reached when that is
    higher, and changes in no other case; nothing else changes.
   */
  function UpdateHighScore(p: Progress): (r: Progress)
    ensures r.highScore >= p.highScore && r.highScore >= p.maxLevelReached
    ensures r.highScore == p.highScore || r.highScore == p.maxLevelReached
    ensures r.highScore != p.highScore <==> p.maxLevelReached > p.highScore
    ensures r.(highScore := p.highScore) == p
  {
    if p.maxLevelReached > p.highScore then p.(highScore := p.maxLevelReached) else p
  }

  /**
    The guarded block shared by `nextLevel` and `showGameOver`: when the
    current level is beyond the highest reached, it becomes the highest
    reached and the score rises to it if it is higher; otherwise nothing
    changes.
   */
  function RecordReached(p: Progress): (r: Progress)
    ensures r.maxLevelReached == Max(p.maxLevelReached, p.currentLevel)
    ensures r.highScore == (if p.currentLevel > p.maxLevelReached then Max(p.highScore, p.currentLevel) else p.highScore)
    ensures r.highScore >= p.highScore
    ensures p.currentLevel <= p.maxLevelReached ==> r == p
    ensures r.currentLevel == p.currentLevel && r.maxMoves == p.maxMoves
  {
    if p.currentLevel > p.maxLevelReached then UpdateHighScore(p.(maxLevelReached := p.currentLevel)) else p
  }

  /** `startGame` and `restartFromLevel1`: back to level 1 with nothing reached; the score is kept. */
  function StartGame(p: Progress): (r: Progress)
    ensures r.currentLevel == 1 && r.maxLevelReached == 0 && r.maxMoves == 14
    ensures r.highScore == p.highScore
  {
    Progress(1, 0, p.highScore, MaxMovesForLevel(1))
  }

  /**
    `nextLevel`: the level just completed is recorded, the counter moves up
    by exactly one, and the next level gets its budget.
   */
  function NextLevel(p: Progress): (r: Progress)
    ensures r.currentLevel == p.currentLevel + 1
    ensures r.maxLevelReached == Max(p.maxLevelReached, p.currentLevel)
    ensures r.highScore == (if p.currentLevel > p.maxLevelReached then Max(p.highScore, p.currentLevel) else p.highScore)
    ensures r.maxMoves == MaxMovesForLevel(p.currentLevel + 1)
  {
    var q := RecordReached(p);
    q.(currentLevel := q.currentLevel + 1, maxMoves := MaxMovesForLevel(q.currentLevel + 1))
  }

  /** The score update of `showGameOver`: the level lost on is recorded, and the counter stays. */
  function GameOver(p: Progress): (r: Progress)
    ensures r.currentLevel == p.currentLevel && r.maxMoves == p.maxMoves
    ensures r.maxLevelReached == Max(p.maxLevelReached, p.currentLevel)
    ensures r.highScore == (if p.currentLevel > p.maxLevelReached then Max(p.highScore, p.currentLevel) else p.highScore)
  {
    RecordReached(p)
  }

  /**
    The bookkeeping invariant: the level reached never passes the score,
    the counter is a real level past the one reached before it, and the
    budget is the counter's.
   */
  ghost predicate Consistent(p: Progress) {
    && 0 <= p.maxLevelReached <= p.highScore
    && 1 <= p.currentLevel
    && p.maxLevelReached <= p.currentLevel
    && p.maxMoves == MaxMovesForLevel(p.currentLevel)
  }

  /** The events that drive the bookkeeping. */
  datatype Event = NewGame | Completed | Lost

  function Apply(p: Progress, e: Event): Progress {
    match e
    case NewGame => StartGame(p)
    case Completed => NextLevel(p)
    case Lost => GameOver(p)
  }

  function Run(p: Progress, es: seq<Event>): Progress
    decreases |es|
  {
    if |es| == 0 then p else Run(Apply(p, es[0]), es[1..])
  }

  /** A game started with a non-negative score is consistent. */
  lemma StartConsistent(p: Progress)
    requires p.highScore >= 0
    ensures Consistent(StartGame(p))
  {
  }

  /** Each event keeps the invariant and never lowers the score. */
  lemma ApplyConsistent(p: Progress, e: Event)
    requires Consistent(p)
    ensures Consistent(Apply(p, e))
    ensures Apply(p, e).highScore >= p.highScore
    ensures e != NewGame ==> Apply(p, e).highScore >= p.currentLevel
  {
  }

  /**
    Over any sequence of events from a consistent state, the invariant
    holds at the end and the high score never decreases.
   */
  lemma {:induction false} RunConsistent(p: Progress, es: seq<Event>)
    requires Consistent(p)
    ensures Consistent(Run(p, es))
    ensures Run(p, es).highScore >= p.highScore
    decreases |es|
  {
    if |es| > 0 {
      ApplyConsistent(p, es[0]);
      RunConsistent(Apply(p, es[0]), es[1..]);
    }
  }

  /** `n` completed levels in a row. */
  function Climb(n: nat): seq<Event> {
    seq(n, _ => Completed)
  }

  /**
    From a fresh start, completing `n` levels leaves the player on level
    n + 1 with level n recorded as reached.
   */
  lemma {:induction false} ClimbReaches(p: Progress, n: nat)
    requires p.currentLevel == 1 && p.maxLevelReached == 0 && 0 <= p.highScore
    ensures var r := Run(p, Climb(n));
            r.currentLevel == n + 1 && r.maxLevelReached == n && r.highScore == Max(p.highScore, n)
            && r.maxMoves == (if n == 0 then p.maxMoves else MaxMovesForLevel(n + 1))
  {
    if n > 0 {
      ClimbReaches(p, n - 1);
      var q := Run(p, Climb(n - 1));
      ClimbSnoc(p, n - 1);
      assert Run(p, Climb(n)) == NextLevel(q);
    }
  }

  lemma {:induction false} ClimbSnoc(p: Progress, n: nat)
    ensures Run(p, Climb(n + 1)) == NextLevel(Run(p, Climb(n)))
  {
    RunAppend(p, Climb(n), [Completed]);
    assert Climb(n) + [Completed] == Climb(n + 1);
  }

  lemma {:induction false} RunAppend(p: Progress, a: seq<Event>, b: seq<Event>)
    ensures Run(p, a + b) == Run(Run(p, a), b)
    decreases |a|
  {
    if |a| > 0 {
      assert (a + b)[1..] == a[1..] + b;
      RunAppend(Apply(p, a[0]), a[1..], b);
    } else {
      assert a + b == b;
    }
  }

  /**
    A run that starts a game, completes `n` levels and then loses records
    the level it lost on: the high score becomes at least n + 1, and is
    exactly n + 1 when the earlier score was lower.
   */
  lemma ClimbThenLose(p: Progress, n: nat)
    requires p.highScore >= 0
    ensures var r := Run(p, [NewGame] + Climb(n) + [Lost]);
            r.currentLevel == n + 1 && r.maxLevelReached == n + 1 && r.highScore == Max(p.highScore, n + 1)
  {
    var s := StartGame(p);
    RunAppend(p, [NewGame], Climb(n));
    RunAppend(p, [NewGame] + Climb(n), [Lost]);
    assert Run(p, [NewGame]) == s;
    ClimbReaches(s, n);
  }
}

=== FILE: resolver.dfy ===
/**
  The move resolver: a slide steps one cell at a time in a direction until
  the next cell is outside the grid or a wall (`calculateNewPosition`).
 */
module Resolver {
  import opened Board

  /** The cell `k` steps from `p` in direction `d`. */
  function Advance(p: Pos, d: Dir, k: int): Pos {
    match d
    case Up => Pos(p.x, p.y - k)
    case Down => Pos(p.x, p.y + k)
    case Left => Pos(p.x - k, p.y)
    case Right => Pos(p.x + k, p.y)
  }

  /** How far `q` lies from `p` along direction `d` (negative when behind). */
  function Travel(p: Pos, q: Pos, d: Dir): int {
    match d
    case Up => p.y - q.y
    case Down => q.y - p.y
    case Left => p.x - q.x
    case Right => q.x - p.x
  }

  /** Cells left before the edge of the grid in direction `d`: the slide's termination measure. */
  function Room(g: Grid, p: Pos, d: Dir): nat {
    match d
    case Up => if p.y <= 0 then 0 else p.y
    case Down => if p.y >= g.height then 0 else g.height - p.y
    case Left => if p.x <= 0 then 0 else p.x
    case Right => if p.x >= g.width then 0 else g.width - p.x
  }

  /**
    `calculateNewPosition`: the cell where a slide from `p` in direction `d`
    stops. The result lies `Travel` cells ahead on the same line, every cell
    passed through (the result included) is valid, the cell just beyond it is
    not, and the slide is never longer than the larger grid side.
   */
  function Slide(g: Grid, p: Pos, d: Dir): (r: Pos)
    requires WellFormed(g)
    ensures 0 <= Travel(p, r, d)
    ensures r == Advance(p, d, Travel(p, r, d))
    ensures !IsValid(g, Advance(p, d, Travel(p, r, d) + 1))
    decreases Room(g, p, d)
  {
    var next := Advance(p, d, 1);
    if IsValid(g, next) then
      var r := Slide(g, next, d);
      assert Advance(p, d, Travel(p, r, d) + 1) == Advance(next, d, Travel(next, r, d) + 1);
      r
    else
      p
  }

  /** Every cell a slide passes through, the stopping cell included, is valid. */
  lemma {:induction false} SlidePathValid(g: Grid, p: Pos, d: Dir)
    requires WellFormed(g)
    ensures forall k :: 1 <= k <= Travel(p, Slide(g, p, d), d) ==> IsValid(g, Advance(p, d, k))
    decreases Room(g, p, d)
  {
    var next := Advance(p, d, 1);
    if IsValid(g, next) {
      var r := Slide(g, next, d);
      SlidePathValid(g, next, d);
      forall k | 2 <= k <= Travel(p, r, d)
        ensures IsValid(g, Advance(p, d, k))
      {
        assert Advance(p, d, k) == Advance(next, d, k - 1);
      }
    }
  }

  /**
    The slide loop runs at most max(width, height) times: a vertical slide
    crosses at most `height` cells and a horizontal one at most `width`.
   */
  lemma SlideBounded(g: Grid, p: Pos, d: Dir)
    requires WellFormed(g)
    ensures d == Up || d == Down ==> Travel(p, Slide(g, p, d), d) <= g.height
    ensures d == Left || d == Right ==> Travel(p, Slide(g, p, d), d) <= g.width
    ensures Travel(p, Slide(g, p, d), d) <= Max(g.width, g.height)
  {
    var t := Travel(p, Slide(g, p, d), d);
    SlidePathValid(g, p, d);
    if t >= 1 {
      assert IsValid(g, Advance(p, d, 1));
      assert IsValid(g, Advance(p, d, t));
    }
  }

  /** A slide either stays put or ends on a valid cell. */
  lemma SlideLands(g: Grid, p: Pos, d: Dir)
    requires WellFormed(g)
    ensures Slide(g, p, d) == p || IsValid(g, Slide(g, p, d))
  {
    var r := Slide(g, p, d);
    SlidePathValid(g, p, d);
    if Travel(p, r, d) >= 1 {
      assert IsValid(g, Advance(p, d, Travel(p, r, d)));
    }
  }

  /** Where a sequence of slides from `p` ends: the edges of the path search's graph. */
  function Follow(g: Grid, p: Pos, ds: seq<Dir>): Pos
    requires WellFormed(g)
  {
    if |ds| == 0 then p else Slide(g, Follow(g, p, ds[..|ds| - 1]), ds[|ds| - 1])
  }

  lemma FollowSnoc(g: Grid, p: Pos, ds: seq<Dir>, d: Dir)
    requires WellFormed(g)
    ensures Follow(g, p, ds + [d]) == Slide(g, Follow(g, p, ds), d)
  {
    assert (ds + [d])[..|ds|] == ds;
  }

  /**
    A slide stops after exactly `n` steps if and only if the `n` cells it
    crosses are valid and the next one is not: the slide rule as a relation.
   */
  lemma SlideStopsAt(g: Grid, p: Pos, d: Dir, n: nat)
    requires WellFormed(g)
    ensures Slide(g, p, d) == Advance(p, d, n) <==>
              (forall k :: 1 <= k <= n ==> IsValid(g, Advance(p, d, k))) && !IsValid(g, Advance(p, d, n + 1))
  {
    var r := Slide(g, p, d);
    var t := Travel(p, r, d);
    SlidePathValid(g, p, d);
    if (forall k :: 1 <= k <= n ==> IsValid(g, Advance(p, d, k))) && !IsValid(g, Advance(p, d, n + 1)) {
      assert n == t;
    }
  }

  /** A slide whose first step is blocked leaves the player where it was, and only then. */
  lemma SlideBlockedStays(g: Grid, p: Pos, d: Dir)
    requires WellFormed(g)
    ensures Slide(g, p, d) == p <==> !IsValid(g, Advance(p, d, 1))
  {
    var r := Slide(g, p, d);
    SlidePathValid(g, p, d);
    if r == p {
      assert Travel(p, r, d) == 0;
    } else {
      assert Travel(p, r, d) >= 1;
    }
  }

  /** Sliding again in the same direction from where a slide stopped goes nowhere. */
  lemma SlideIdempotent(g: Grid, p: Pos, d: Dir)
    requires WellFormed(g)
    ensures Slide(g, Slide(g, p, d), d) == Slide(g, p, d)
  {
    var r := Slide(g, p, d);
    assert Advance(r, d, 1) == Advance(p, d, Travel(p, r, d) + 1);
    SlideBlockedStays(g, r, d);
  }

  /** A slide moves along one axis only: x is kept by UP and DOWN, y by LEFT and RIGHT. */
  lemma SlideKeepsCrossAxis(g: Grid, p: Pos, d: Dir)
    requires WellFormed(g)
    ensures d == Up || d == Down ==> Slide(g, p, d).x == p.x
    ensures d == Left || d == Right ==> Slide(g, p, d).y == p.y
  {
  }

  /**
    On the 10 x 10 grid walled only on its ring, RIGHT from (1, 1) stops at
    (8, 1), and DOWN from there stops at the target (8, 8).
   */
  lemma OpenGridTwoSlides(g: Grid)
    requires WellFormed(g) && g.width == 10 && g.height == 10 && BorderOnly(g)
    ensures Slide(g, Pos(1, 1), Right) == Pos(8, 1)
    ensures Slide(g, Pos(8, 1), Down) == Pos(8, 8)
    ensures Pos(8, 8) == Target(g)
  {
    assert forall k :: 1 <= k <= 7 ==> IsValid(g, Advance(Pos(1, 1), Right, k));
    assert !IsValid(g, Advance(Pos(1, 1), Right, 8));
    SlideStopsAt(g, Pos(1, 1), Right, 7);
    assert forall k :: 1 <= k <= 7 ==> IsValid(g, Advance(Pos(8, 1), Down, k));
    assert !IsValid(g, Advance(Pos(8, 1), Down, 8));
    SlideStopsAt(g, Pos(8, 1), Down, 7);
  }
}

=== FILE: session.dfy ===
/**
  The activity driving the view: `MainActivity.startLevel` hands the level's
  budget to `GameView.startLevel`, whose preparation ends with the new
  layout in play.
 */
module Session {
  import opened Board
  import opened Generator
  import opened Level
  import opened Play
  import opened Progress

  /**
    `MainActivity.startLevel` for the current level: the budget for the
    level is set, the view begins the level, prepares a layout, and posts
    it. The player then stands on the start cell of a layout whose start and
    target are open, with a budget no smaller than the level's (so at least
    5 moves) and at least two beyond the minimum the view reports; the
    play-state invariant holds and the bookkeeping stays consistent.
   */
  method LaunchLevel(prog: Progress, s: Game, rand: Random, next: nat, elapsed: nat -> int)
    returns (prog': Progress, s': Game, p: Prepared, next': nat)
    requires Consistent(prog) && Playable(s.grid)
    ensures prog'.maxMoves == MaxMovesForLevel(prog.currentLevel) && Consistent(prog')
    ensures prog'.currentLevel == prog.currentLevel && prog'.maxLevelReached == prog.maxLevelReached && prog'.highScore == prog.highScore
    ensures Sound(s') && Playable(s'.grid) && EndsOpen(s'.grid)
    ensures s'.grid == p.grid && s'.player == Start(s'.grid) && s'.movesLeft == p.movesLeft
    ensures !s'.preparing && !s'.completed && !s'.over && s'.animating == s.animating
    ensures s'.movesLeft >= MaxMovesForLevel(prog.currentLevel) && s'.movesLeft >= 5
    ensures s'.movesLeft >= p.minMoves + 2
  {
    prog' := prog.(maxMoves := MaxMovesForLevel(prog.currentLevel));
    var b := BeginLevel(s);
    ghost var measured;
    p, next', measured := StartLevel(s.grid, prog.currentLevel, prog'.maxMoves, rand, next, elapsed);
    s' := LevelReady(b, p.grid, p.movesLeft);
  }

  /**
    `MainActivity.startGame` on the view as created: back to level 1 with
    nothing reached, and the first level launched on the 10 x 10 grid. The
    stored score is a level reached or the default 0, so it is never
    negative. The view starts outside the play-state invariant (no move
    left) and is inside it once the level is in play.
   */
  method LaunchGame(prog: Progress, rand: Random, next: nat, elapsed: nat -> int)
    returns (prog': Progress, s': Game, p: Prepared, next': nat)
    requires prog.highScore >= 0
    ensures prog'.currentLevel == 1 && prog'.maxLevelReached == 0 && prog'.highScore == prog.highScore
    ensures prog'.maxMoves == 14 && Consistent(prog')
    ensures Sound(s') && Playable(s'.grid) && EndsOpen(s'.grid) && s'.player == Start(s'.grid)
    ensures !s'.preparing && !s'.completed && !s'.over && !s'.animating
    ensures s'.movesLeft >= 14 && s'.movesLeft >= p.minMoves + 2
  {
    StartConsistent(prog);
    var s := Initial(10, 10);
    prog', s', p, next' := LaunchLevel(StartGame(prog), s, rand, next, elapsed);
  }

  /**
    `onLevelCompleted` followed by the delayed `nextLevel`: the completed
    level is recorded and the next one is launched with its own budget.
   */
  method AdvanceLevel(prog: Progress, s: Game, rand: Random, next: nat, elapsed: nat -> int)
    returns (prog': Progress, s': Game, p: Prepared, next': nat)
    requires Consistent(prog) && Playable(s.grid) && s.completed
    ensures prog'.currentLevel == prog.currentLevel + 1 && Consistent(prog')
    ensures prog'.highScore >= prog.currentLevel && prog'.highScore >= prog.highScore
    ensures Sound(s') && !s'.completed && !s'.over && s'.player == Start(s'.grid)
    ensures s'.movesLeft >= MaxMovesForLevel(prog.currentLevel + 1)
  {
    ApplyConsistent(prog, Completed);
    var q := NextLevel(prog);
    prog', s', p, next' := LaunchLevel(q, s, rand, next, elapsed);
  }
}

=== FILE: stale_origin.dfy ===
/**
  The generator as `GameView` runs it on the first round of a level after a
  win: the path search inside generation reads the player's position before
  `startLevel` resets it, so it starts on the target.
 */
module StaleOrigin {
  import opened Board
  import opened Validator
  import opened Generator

  /**
    The anti-two-move loop measuring from the target: the search reports 0
    for every layout, so all 40 rounds run whatever walls they produce.
   */
  method AntiTwoMoveAfterWin(g: Grid, level: int, rand: Random, next: nat)
    returns (g': Grid, m: int, attempts: int, next': nat)
    requires Playable(g)
    ensures m == 0 && attempts == AntiTwoMoveAttempts
  {
    g', m, attempts, next' := AvoidTwoMoveLayouts(g, level, Target(g), rand, next);
    assert Target(g') == Target(g);
    MinMovesAtTarget(g', Target(g'), m);
  }

  /**
    The whole generation measuring from the target: it always reports 0 and
    the escalation spends its entire budget, walling up to 120 or 150 extra
    random cells, whatever the layout needs from the start cell.
   */
  method GenerateAfterWin(g: Grid, level: int, rand: Random, next: nat)
    returns (g': Grid, m: int, escalations: int, next': nat)
    requires Playable(g) && level >= 1
    ensures m == 0 && escalations == EscalationBudget(level)
  {
    g', m, escalations, next' := GenerateLevel(g, level, Target(g), rand, next);
    MinMovesAtTarget(g', Target(g'), m);
    RequiredMovesRange(level);
  }
}

=== FILE: validator.dfy ===
/**
  The path validator: `calculateMinMoves`, a breadth-first search whose edges
  are the four slides out of each cell, with every cell enqueued at most once.
 */
module Validator {
  import opened Board
  import opened Resolver

  /** `PathNode`: a cell and the number of slides that reached it. */
  datatype Node = Node(pos: Pos, moves: int)

  /**
    `m` is the minimum number of slides from `s` to `t`, or -1 when no
    sequence of slides reaches `t`.
   */
  ghost predicate IsMinMoves(g: Grid, s: Pos, t: Pos, m: int)
    requires WellFormed(g)
  {
    if m == -1 then
      forall ds: seq<Dir> :: Follow(g, s, ds) != t
    else
      && m >= 0
      && (exists ds: seq<Dir> :: |ds| == m && Follow(g, s, ds) == t)
      && forall ds: seq<Dir> :: Follow(g, s, ds) == t ==> m <= |ds|
  }

  /** `t` is reachable from `s`, and every way of reaching it takes at least `k` slides. */
  ghost predicate Needs(g: Grid, s: Pos, t: Pos, k: int)
    requires WellFormed(g)
  {
    && (exists ds: seq<Dir> :: Follow(g, s, ds) == t)
    && forall ds: seq<Dir> :: Follow(g, s, ds) == t ==> k <= |ds|
  }

  /** The minimum-moves value of a layout is unique: validating the same walls twice agrees. */
  lemma MinMovesUnique(g: Grid, s: Pos, t: Pos, a: int, b: int)
    requires WellFormed(g)
    requires IsMinMoves(g, s, t, a) && IsMinMoves(g, s, t, b)
    ensures a == b
  {
    if a != -1 && b != -1 {
      var da :| |da| == a && Follow(g, s, da) == t;
      var db :| |db| == b && Follow(g, s, db) == t;
      assert a <= |db| && b <= |da|;
    }
  }

  /** The generator's stopping test `m >= k && m != -1` holds exactly when the layout needs `k` slides. */
  lemma MinMovesMeets(g: Grid, s: Pos, t: Pos, m: int, k: int)
    requires WellFormed(g) && IsMinMoves(g, s, t, m)
    ensures (m >= k && m != -1) <==> Needs(g, s, t, k)
  {
    if m != -1 {
      var ds :| |ds| == m && Follow(g, s, ds) == t;
      if Needs(g, s, t, k) {
        assert k <= |ds|;
      }
    }
  }

  /** When the search starts on the target it reports 0 moves. */
  lemma MinMovesAtTarget(g: Grid, t: Pos, m: int)
    requires WellFormed(g) && IsMinMoves(g, t, t, m)
    ensures m == 0
  {
    var none: seq<Dir> := [];
    assert Follow(g, t, none) == t;
  }

  // ----- the search's invariants, packaged -----

  predicate InQueue(v: Pos, q: seq<Node>) {
    exists i :: 0 <= i < |q| && q[i].pos == v
  }

  /** Every recorded path really leads from `s` to the cell it is recorded for. */
  ghost predicate Witnessed(g: Grid, s: Pos, wit: map<Pos, seq<Dir>>)
    requires WellFormed(g)
  {
    forall v :: v in wit ==> Follow(g, s, wit[v]) == v
  }

  /**
    The queue spans two levels: its first `front` nodes are `level` slides
    away and the rest `level + 1`, each node's count being the length of the
    path recorded for its cell.
   */
  ghost predicate Layered(q: seq<Node>, wit: map<Pos, seq<Dir>>, level: int, front: int) {
    && 0 <= front <= |q|
    && (|q| > 0 ==> front > 0)
    && forall i :: 0 <= i < |q| ==>
         && q[i].pos in wit
         && q[i].moves == |wit[q[i].pos]|
         && q[i].moves == (if i < front then level else level + 1)
  }

  /** Every visited cell has been dequeued or is still waiting in the queue. */
  ghost predicate Covered(visited: set<Pos>, done: set<Pos>, q: seq<Node>) {
    forall v :: v in visited ==> v in done || InQueue(v, q)
  }

  /** Dequeued cells had all four slides explored, each one slide further at most. */
  ghost predicate Closed(g: Grid, done: set<Pos>, wit: map<Pos, seq<Dir>>, level: int)
    requires WellFormed(g)
  {
    forall v :: v in done ==>
      && v in wit
      && |wit[v]| <= level
      && forall d: Dir :: Slide(g, v, d) in wit && |wit[Slide(g, v, d)]| <= |wit[v]| + 1
  }

  /** Every cell `level` or fewer slides away has been visited, with no longer a path than needed. */
  ghost predicate Complete(g: Grid, s: Pos, wit: map<Pos, seq<Dir>>, level: int)
    requires WellFormed(g)
  {
    forall ds: seq<Dir> :: |ds| <= level ==> Follow(g, s, ds) in wit && |wit[Follow(g, s, ds)]| <= |ds|
  }

  /** The invariant of the search loop, with the ghost bookkeeping that proves it. */
  ghost predicate Searching(g: Grid, s: Pos, t: Pos, visited: set<Pos>, queue: seq<Node>, wit: map<Pos, seq<Dir>>,
                            done: set<Pos>, level: int, front: int, polls: int)
    requires WellFormed(g)
  {
    && wit.Keys == visited && visited <= Cells(g) && s in visited && level >= 0
    && Witnessed(g, s, wit)
    && Layered(queue, wit, level, front)
    && (forall v :: v in wit ==> |wit[v]| <= level + 1)
    && done <= visited && t !in done
    && Covered(visited, done, queue)
    && Closed(g, done, wit, level)
    && Complete(g, s, wit, level)
    && polls + |queue| == |visited|
  }

  /** `wit'` keeps every path `wit` recorded. */
  ghost predicate Extends(wit: map<Pos, seq<Dir>>, wit': map<Pos, seq<Dir>>) {
    forall v :: v in wit ==> v in wit' && wit'[v] == wit[v]
  }

  /** The queue only grows at its end, by one node `moves` slides away per newly visited cell. */
  ghost predicate Appended(queue: seq<Node>, queue': seq<Node>, visited: set<Pos>, visited': set<Pos>,
                           wit': map<Pos, seq<Dir>>, moves: int)
  {
    && |queue| <= |queue'| && queue'[..|queue|] == queue
    && |queue'| - |queue| == |visited'| - |visited|
    && (forall v :: v in visited' && v !in visited ==> InQueue(v, queue') && v in wit' && |wit'[v]| == moves)
    && forall k :: |queue| <= k < |queue'| ==>
         queue'[k].moves == moves && queue'[k].pos in wit' && |wit'[queue'[k].pos]| == moves
  }

  /** What expanding a dequeued node `moves - 1` slides away keeps and adds. */
  ghost predicate Grown(g: Grid, s: Pos, visited: set<Pos>, queue: seq<Node>, wit: map<Pos, seq<Dir>>,
                        visited': set<Pos>, queue': seq<Node>, wit': map<Pos, seq<Dir>>, moves: int)
    requires WellFormed(g)
  {
    && wit'.Keys == visited' && visited <= visited' <= Cells(g)
    && Witnessed(g, s, wit') && Extends(wit, wit')
    && Appended(queue, queue', visited, visited', wit', moves)
  }

  /** The slides from `c` in the first `i` directions of the expansion order all end on visited cells. */
  ghost predicate Reached(g: Grid, c: Pos, visited: set<Pos>, i: int)
    requires WellFormed(g)
  {
    forall j :: 0 <= j < i && j < |AllDirs| ==> Slide(g, c, AllDirs[j]) in visited
  }

  // ----- one direction, one dequeued node -----

  /**
    One pass of the direction loop: slide from the dequeued cell and, when
    the result is valid and not yet visited, mark it and enqueue it one move
    further (the body of `if (isValidPosition(newPos) && !visited[..])`).
   */
  method Visit(g: Grid, ghost s: Pos, cur: Node, d: Dir, visited: set<Pos>, queue: seq<Node>, ghost wit: map<Pos, seq<Dir>>)
    returns (visited': set<Pos>, queue': seq<Node>, ghost wit': map<Pos, seq<Dir>>)
    requires WellFormed(g)
    requires wit.Keys == visited && visited <= Cells(g)
    requires Witnessed(g, s, wit)
    requires cur.pos in visited && cur.moves == |wit[cur.pos]|
    ensures wit'.Keys == visited' && visited <= visited' <= Cells(g)
    ensures Witnessed(g, s, wit') && Extends(wit, wit')
    ensures Slide(g, cur.pos, d) in visited'
    ensures visited' == visited ==> queue' == queue
    ensures visited' != visited ==>
              && visited' == visited + {Slide(g, cur.pos, d)}
              && Slide(g, cur.pos, d) !in visited
              && queue' == queue + [Node(Slide(g, cur.pos, d), cur.moves + 1)]
              && |wit'[Slide(g, cur.pos, d)]| == cur.moves + 1
  {
    var next := Slide(g, cur.pos, d);
    SlideLands(g, cur.pos, d);
    if IsValid(g, next) && next !in visited {
      FollowSnoc(g, s, wit[cur.pos], d);
      InCells(g, next);
      visited' := visited + {next};
      wit' := wit[next := wit[cur.pos] + [d]];
      queue' := queue + [Node(next, cur.moves + 1)];
    } else {
      visited', queue', wit' := visited, queue, wit;
    }
  }

  lemma AppendedStep(queue: seq<Node>, q1: seq<Node>, q2: seq<Node>, visited: set<Pos>, v1: set<Pos>, v2: set<Pos>,
                     w1: map<Pos, seq<Dir>>, w2: map<Pos, seq<Dir>>, n: Node)
    requires Appended(queue, q1, visited, v1, w1, n.moves)
    requires Extends(w1, w2) && visited <= v1
    requires v2 == v1 ==> q2 == q1
    requires v2 != v1 ==> v2 == v1 + {n.pos} && n.pos !in v1 && q2 == q1 + [n] && n.pos in w2 && |w2[n.pos]| == n.moves
    ensures Appended(queue, q2, visited, v2, w2, n.moves)
  {
    if v2 != v1 {
      assert q2[|q2| - 1] == n;
      forall v | v in v2 && v !in visited
        ensures InQueue(v, q2) && v in w2 && |w2[v]| == n.moves
      {
        if v != n.pos {
          var j :| 0 <= j < |q1| && q1[j].pos == v;
          assert q2[j] == q1[j];
        }
      }
      assert q2[..|queue|] == q1[..|queue|];
    }
  }

  /** One more direction explored keeps the expansion's invariant. */
  lemma GrownStep(g: Grid, s: Pos, cur: Node, i: int, visited: set<Pos>, queue: seq<Node>, wit: map<Pos, seq<Dir>>,
                  v1: set<Pos>, q1: seq<Node>, w1: map<Pos, seq<Dir>>,
                  v2: set<Pos>, q2: seq<Node>, w2: map<Pos, seq<Dir>>)
    requires WellFormed(g) && 0 <= i < 4
    requires Grown(g, s, visited, queue, wit, v1, q1, w1, cur.moves + 1) && Reached(g, cur.pos, v1, i)
    requires w2.Keys == v2 && v1 <= v2 <= Cells(g)
    requires Witnessed(g, s, w2) && Extends(w1, w2)
    requires Slide(g, cur.pos, AllDirs[i]) in v2
    requires v2 == v1 ==> q2 == q1
    requires v2 != v1 ==>
               && v2 == v1 + {Slide(g, cur.pos, AllDirs[i])}
               && Slide(g, cur.pos, AllDirs[i]) !in v1
               && q2 == q1 + [Node(Slide(g, cur.pos, AllDirs[i]), cur.moves + 1)]
               && |w2[Slide(g, cur.pos, AllDirs[i])]| == cur.moves + 1
    ensures Grown(g, s, visited, queue, wit, v2, q2, w2, cur.moves + 1) && Reached(g, cur.pos, v2, i + 1)
  {
    AppendedStep(queue, q1, q2, visited, v1, v2, w1, w2, Node(Slide(g, cur.pos, AllDirs[i]), cur.moves + 1));
    ExtendsTrans(wit, w1, w2);
    ReachedStep(g, cur.pos, v1, v2, i);
  }

  lemma ExtendsTrans(a: map<Pos, seq<Dir>>, b: map<Pos, seq<Dir>>, c: map<Pos, seq<Dir>>)
    requires Extends(a, b) && Extends(b, c)
    ensures Extends(a, c)
  {
  }

  lemma ReachedStep(g: Grid, c: Pos, v1: set<Pos>, v2: set<Pos>, i: int)
    requires WellFormed(g) && 0 <= i < 4 && Reached(g, c, v1, i) && v1 <= v2
    requires Slide(g, c, AllDirs[i]) in v2
    ensures Reached(g, c, v2, i + 1)
  {
    forall j | 0 <= j < i + 1 && j < |AllDirs|
      ensures Slide(g, c, AllDirs[j]) in v2
    {
      if j < i {
        assert Slide(g, c, AllDirs[j]) in v1;
      }
    }
  }

  /** Once all four directions are explored, every slide out of `c` ends on a visited cell. */
  lemma AllReached(g: Grid, c: Pos, visited: set<Pos>)
    requires WellFormed(g) && Reached(g, c, visited, 4)
    ensures forall d: Dir :: Slide(g, c, d) in visited
  {
    forall d: Dir
      ensures Slide(g, c, d) in visited
    {
      var j := match d case Up => 0 case Down => 1 case Left => 2 case Right => 3;
      assert AllDirs[j] == d;
    }
  }

  /**
    The inner `for (Direction direction : Direction.values())` of the search
    for one dequeued node: afterwards every slide out of the node ends on a
    visited cell, and each newly visited cell was appended to the queue one
    slide further than the node.
   */
  method Expand(g: Grid, ghost s: Pos, cur: Node, visited: set<Pos>, queue: seq<Node>, ghost wit: map<Pos, seq<Dir>>)
    returns (visited': set<Pos>, queue': seq<Node>, ghost wit': map<Pos, seq<Dir>>)
    requires WellFormed(g)
    requires wit.Keys == visited && visited <= Cells(g)
    requires Witnessed(g, s, wit)
    requires cur.pos in visited && cur.moves == |wit[cur.pos]|
    ensures Grown(g, s, visited, queue, wit, visited', queue', wit', cur.moves + 1)
    ensures forall d: Dir :: Slide(g, cur.pos, d) in visited'
  {
    visited', queue', wit' := visited, queue, wit;
    assert queue'[..|queue|] == queue;
    var i := 0;
    while i < 4
      invariant 0 <= i <= 4
      invariant Grown(g, s, visited, queue, wit, visited', queue', wit', cur.moves + 1)
      invariant Reached(g, cur.pos, visited', i)
    {
      var v1, q1 := visited', queue';
      ghost var w1 := wit';
      visited', queue', wit' := Visit(g, s, cur, AllDirs[i], visited', queue', wit');
      GrownStep(g, s, cur, i, visited, queue, wit, v1, q1, w1, visited', queue', wit');
      i := i + 1;
    }
    AllReached(g, cur.pos, visited');
  }

  // ----- one iteration of the search loop -----

  /** The level of the queue's head after a pop and an expansion. */
  function NextLevel(level: int, front: int, n: int): int {
    if front > 1 || n == 0 then level else level + 1
  }

  /** How many queue nodes sit at `NextLevel` after a pop and an expansion. */
  function NextFront(front: int, n: int): int {
    if front > 1 then front - 1 else n
  }

  lemma LayeredStep(q0: seq<Node>, wit0: map<Pos, seq<Dir>>, level: int, front: int,
                    visited0: set<Pos>, visited: set<Pos>, queue: seq<Node>, wit: map<Pos, seq<Dir>>)
    requires |q0| > 0 && Layered(q0, wit0, level, front) && Extends(wit0, wit)
    requires Appended(q0[1..], queue, visited0, visited, wit, level + 1)
    ensures Layered(queue, wit, NextLevel(level, front, |queue|), NextFront(front, |queue|))
  {
    var n := |q0| - 1;
    forall i | 0 <= i < n
      ensures queue[i] == q0[i + 1]
    {
      assert queue[..n][i] == q0[1..][i];
    }
  }

  /** The queue and the visited set agree after a pop and an expansion. */
  lemma PopCovered(visited0: set<Pos>, done0: set<Pos>, q0: seq<Node>, visited1: set<Pos>, q1: seq<Node>,
                   wit1: map<Pos, seq<Dir>>, moves: int)
    requires |q0| > 0 && Covered(visited0, done0, q0)
    requires Appended(q0[1..], q1, visited0, visited1, wit1, moves)
    ensures Covered(visited1, done0 + {q0[0].pos}, q1)
  {
    forall v | v in visited1
      ensures v in done0 + {q0[0].pos} || InQueue(v, q1)
    {
      if v in visited0 && v !in done0 && v != q0[0].pos {
        var j :| 0 <= j < |q0| && q0[j].pos == v;
        assert q1[j - 1] == q0[j];
      }
    }
  }

  /** Recorded paths stay at most one slide longer than the level being dequeued. */
  lemma BoundStep(wit0: map<Pos, seq<Dir>>, wit: map<Pos, seq<Dir>>, visited0: set<Pos>, visited: set<Pos>,
                  queue0: seq<Node>, queue: seq<Node>, level: int)
    requires wit0.Keys == visited0 && wit.Keys == visited && Extends(wit0, wit)
    requires forall v :: v in wit0 ==> |wit0[v]| <= level + 1
    requires Appended(queue0, queue, visited0, visited, wit, level + 1)
    ensures forall v :: v in wit ==> |wit[v]| <= level + 1
  {
  }

  /** Once the whole queue is one level further, every cell of the old level has been dequeued. */
  lemma LevelFinished(wit: map<Pos, seq<Dir>>, done: set<Pos>, q: seq<Node>, level: int, front: int)
    requires Covered(wit.Keys, done, q) && Layered(q, wit, level + 1, front)
    ensures forall v :: v in wit && |wit[v]| <= level ==> v in done
  {
    forall v | v in wit && |wit[v]| <= level
      ensures v in done
    {
    }
  }

  lemma ClosedStep(g: Grid, done: set<Pos>, c: Pos, wit: map<Pos, seq<Dir>>, wit': map<Pos, seq<Dir>>, level: int, level': int)
    requires WellFormed(g)
    requires Closed(g, done, wit, level) && Extends(wit, wit')
    requires c in wit' && |wit'[c]| == level && level <= level'
    requires forall d: Dir :: Slide(g, c, d) in wit'
    requires forall v :: v in wit' ==> |wit'[v]| <= level + 1
    ensures Closed(g, done + {c}, wit', level')
  {
  }

  lemma CompleteGrow(g: Grid, s: Pos, wit: map<Pos, seq<Dir>>, wit': map<Pos, seq<Dir>>, level: int)
    requires WellFormed(g) && Complete(g, s, wit, level) && Extends(wit, wit')
    ensures Complete(g, s, wit', level)
  {
  }

  /** When every cell `level` slides away has been dequeued, the cells one slide further are all visited. */
  lemma LevelUp(g: Grid, s: Pos, done: set<Pos>, wit: map<Pos, seq<Dir>>, level: nat)
    requires WellFormed(g)
    requires Complete(g, s, wit, level)
    requires Closed(g, done, wit, level)
    requires forall v :: v in wit && |wit[v]| <= level ==> v in done
    ensures Complete(g, s, wit, level + 1)
  {
    forall ds: seq<Dir> | |ds| <= level + 1
      ensures Follow(g, s, ds) in wit && |wit[Follow(g, s, ds)]| <= |ds|
    {
      if |ds| == level + 1 {
        var pre := ds[..level];
        var u := Follow(g, s, pre);
        assert u in wit && |wit[u]| <= level;
        assert u in done;
        assert Follow(g, s, ds) == Slide(g, u, ds[level]);
      }
    }
  }

  lemma GrowCells(cells: set<Pos>, a: set<Pos>, b: set<Pos>)
    requires a <= b <= cells && |a| < |b|
    ensures |cells - b| < |cells - a|
  {
    assert cells - a == (cells - b) + (b - a);
    assert b == a + (b - a);
  }

  lemma SubsetCard(a: set<Pos>, b: set<Pos>)
    requires a <= b
    ensures |a| <= |b|
    ensures |a| == |b| ==> a == b
  {
    assert b == a + (b - a);
  }

  /** The queue part of one iteration: layering, coverage, the path-length bound, counting and progress. */
  lemma QueueStep(g: Grid, s: Pos, t: Pos, visited0: set<Pos>, q0: seq<Node>, wit0: map<Pos, seq<Dir>>,
                  done0: set<Pos>, level0: int, front0: int, polls0: int,
                  visited: set<Pos>, queue: seq<Node>, wit: map<Pos, seq<Dir>>)
    requires WellFormed(g)
    requires Searching(g, s, t, visited0, q0, wit0, done0, level0, front0, polls0)
    requires |q0| > 0 && q0[0].pos != t
    requires Grown(g, s, visited0, q0[1..], wit0, visited, queue, wit, q0[0].moves + 1)
    ensures q0[0].moves == level0 && q0[0].pos in wit && |wit[q0[0].pos]| == level0
    ensures Layered(queue, wit, NextLevel(level0, front0, |queue|), NextFront(front0, |queue|))
    ensures Covered(visited, done0 + {q0[0].pos}, queue)
    ensures forall v :: v in wit ==> |wit[v]| <= level0 + 1
    ensures polls0 + 1 + |queue| == |visited|
    ensures |Cells(g) - visited| < |Cells(g) - visited0| || (visited == visited0 && |queue| < |q0|)
  {
    assert q0[0].moves == level0;
    LayeredStep(q0, wit0, level0, front0, visited0, visited, queue, wit);
    PopCovered(visited0, done0, q0, visited, queue, wit, level0 + 1);
    BoundStep(wit0, wit, visited0, visited, q0[1..], queue, level0);
    SubsetCard(visited0, visited);
    if |visited| > |visited0| {
      GrowCells(Cells(g), visited0, visited);
    }
  }

  /** The exploration part of one iteration: dequeued cells stay closed and the completeness level advances with the queue. */
  lemma ClosureStep(g: Grid, s: Pos, wit0: map<Pos, seq<Dir>>, wit: map<Pos, seq<Dir>>, visited: set<Pos>, done0: set<Pos>, c: Pos,
                    level0: nat, level: int, queue: seq<Node>, front: int)
    requires WellFormed(g)
    requires Closed(g, done0, wit0, level0) && Complete(g, s, wit0, level0) && Extends(wit0, wit)
    requires c in wit && |wit[c]| == level0
    requires forall d: Dir :: Slide(g, c, d) in wit
    requires forall v :: v in wit ==> |wit[v]| <= level0 + 1
    requires level == level0 || level == level0 + 1
    requires wit.Keys == visited
    requires level == level0 + 1 ==> Covered(visited, done0 + {c}, queue) && Layered(queue, wit, level, front)
    ensures Closed(g, done0 + {c}, wit, level) && Complete(g, s, wit, level)
  {
    ClosedStep(g, done0, c, wit0, wit, level0, level0);
    ClosedStep(g, done0, c, wit0, wit, level0, level);
    CompleteGrow(g, s, wit0, wit, level0);
    if level == level0 + 1 {
      LevelFinished(wit, done0 + {c}, queue, level0, front);
      LevelUp(g, s, done0 + {c}, wit, level0);
    }
  }

  /** The sets and maps of one iteration only grow, and the dequeued cell joins the done set. */
  lemma FrameStep(g: Grid, s: Pos, t: Pos, visited0: set<Pos>, q0: seq<Node>, wit0: map<Pos, seq<Dir>>,
                  done0: set<Pos>, level0: int, front0: int, polls0: int,
                  visited: set<Pos>, queue: seq<Node>, wit: map<Pos, seq<Dir>>)
    requires WellFormed(g)
    requires Searching(g, s, t, visited0, q0, wit0, done0, level0, front0, polls0)
    requires |q0| > 0 && q0[0].pos != t
    requires Grown(g, s, visited0, q0[1..], wit0, visited, queue, wit, q0[0].moves + 1)
    ensures wit.Keys == visited && visited <= Cells(g) && s in visited && Witnessed(g, s, wit) && Extends(wit0, wit)
    ensures done0 + {q0[0].pos} <= visited && t !in done0 + {q0[0].pos}
  {
    assert q0[0].pos in visited0;
  }

  /** One iteration of the search loop keeps its invariant and makes progress. */
  lemma SearchStep(g: Grid, s: Pos, t: Pos, visited0: set<Pos>, q0: seq<Node>, wit0: map<Pos, seq<Dir>>,
                   done0: set<Pos>, level0: int, front0: int, polls0: int,
                   visited: set<Pos>, queue: seq<Node>, wit: map<Pos, seq<Dir>>)
    requires WellFormed(g)
    requires Searching(g, s, t, visited0, q0, wit0, done0, level0, front0, polls0)
    requires |q0| > 0 && q0[0].pos != t
    requires Grown(g, s, visited0, q0[1..], wit0, visited, queue, wit, q0[0].moves + 1)
    requires forall d: Dir :: Slide(g, q0[0].pos, d) in visited
    ensures Searching(g, s, t, visited, queue, wit, done0 + {q0[0].pos},
                      NextLevel(level0, front0, |queue|), NextFront(front0, |queue|), polls0 + 1)
    ensures |Cells(g) - visited| < |Cells(g) - visited0| || (visited == visited0 && |queue| < |q0|)
  {
    QueueStep(g, s, t, visited0, q0, wit0, done0, level0, front0, polls0, visited, queue, wit);
    FrameStep(g, s, t, visited0, q0, wit0, done0, level0, front0, polls0, visited, queue, wit);
    ClosureStep(g, s, wit0, wit, visited, done0, q0[0].pos, level0, NextLevel(level0, front0, |queue|), queue, NextFront(front0, |queue|));
  }

  lemma SearchStart(g: Grid, s: Pos, t: Pos)
    requires WellFormed(g) && InBounds(g, s)
    ensures Searching(g, s, t, {s}, [Node(s, 0)], map[s := []], {}, 0, 1, 0)
  {
    InCells(g, s);
    var wit: map<Pos, seq<Dir>> := map[s := []];
    assert Follow(g, s, []) == s;
    forall ds: seq<Dir> | |ds| <= 0
      ensures Follow(g, s, ds) in wit && |wit[Follow(g, s, ds)]| <= |ds|
    {
      assert ds == [];
    }
    assert InQueue(s, [Node(s, 0)]) by { assert [Node(s, 0)][0].pos == s; }
  }

  /** Dequeuing the target at the current level proves its recorded path is a shortest one. */
  lemma FoundTarget(g: Grid, s: Pos, t: Pos, wit: map<Pos, seq<Dir>>, level: int)
    requires WellFormed(g) && Witnessed(g, s, wit) && Complete(g, s, wit, level)
    requires t in wit && |wit[t]| == level
    ensures IsMinMoves(g, s, t, level)
  {
    assert Follow(g, s, wit[t]) == t;
    forall ds: seq<Dir> | Follow(g, s, ds) == t
      ensures level <= |ds|
    {
    }
  }

  /** The search stops on the target: its count is the minimum, and no more cells were dequeued than exist. */
  lemma Found(g: Grid, s: Pos, t: Pos, visited: set<Pos>, queue: seq<Node>, wit: map<Pos, seq<Dir>>,
              done: set<Pos>, level: int, front: int, polls: int)
    requires WellFormed(g) && Searching(g, s, t, visited, queue, wit, done, level, front, polls)
    requires |queue| > 0 && queue[0].pos == t
    ensures IsMinMoves(g, s, t, queue[0].moves) && queue[0].moves >= 0
    ensures s == t ==> queue[0].moves == 0
    ensures polls + 1 <= g.width * g.height
  {
    FoundTarget(g, s, t, wit, level);
    if s == t {
      MinMovesAtTarget(g, t, level);
    }
    SubsetCard(visited, Cells(g));
    CellCount(g);
  }

  /** The queue ran dry without the target: no sequence of slides reaches it. */
  lemma Exhausted(g: Grid, s: Pos, t: Pos, visited: set<Pos>, wit: map<Pos, seq<Dir>>,
                  done: set<Pos>, level: int, front: int, polls: int)
    requires WellFormed(g) && Searching(g, s, t, visited, [], wit, done, level, front, polls)
    ensures IsMinMoves(g, s, t, -1)
    ensures polls <= g.width * g.height
  {
    assert visited == done;
    forall ds: seq<Dir>
      ensures Follow(g, s, ds) != t
    {
      ClosedReachesAll(g, s, done, ds);
    }
    SubsetCard(visited, Cells(g));
    CellCount(g);
  }

  lemma {:induction false} ClosedReachesAll(g: Grid, s: Pos, done: set<Pos>, ds: seq<Dir>)
    requires WellFormed(g)
    requires s in done
    requires forall v, d: Dir :: v in done ==> Slide(g, v, d) in done
    ensures Follow(g, s, ds) in done
  {
    if |ds| > 0 {
      ClosedReachesAll(g, s, done, ds[..|ds| - 1]);
    }
  }

  /**
    `calculateMinMoves`: breadth-first search over slides from `s`. The result
    is the exact minimum number of slides to `t`, or -1 when `t` cannot be
    reached; 0 when `s` is `t`. The ghost `polls` counts dequeued nodes:
    every cell is enqueued at most once, so there are at most width * height.
   */
  method MinMoves(g: Grid, s: Pos, t: Pos) returns (r: int, ghost polls: nat)
    requires WellFormed(g) && InBounds(g, s)
    ensures IsMinMoves(g, s, t, r)
    ensures r >= -1
    ensures s == t ==> r == 0
    ensures polls <= g.width * g.height
  {
    SearchStart(g, s, t);
    var visited: set<Pos> := {s};
    var queue: seq<Node> := [Node(s, 0)];
    ghost var wit: map<Pos, seq<Dir>> := map[s := []];
    ghost var done: set<Pos> := {};
    ghost var level, front := 0, 1;
    polls := 0;
    while |queue| > 0
      invariant Searching(g, s, t, visited, queue, wit, done, level, front, polls)
      decreases |Cells(g) - visited|, |queue|
    {
      var cur := queue[0];
      if cur.pos == t {
        Found(g, s, t, visited, queue, wit, done, level, front, polls);
        r := cur.moves;
        polls := polls + 1;
        return;
      }
      ghost var visited0, q0, wit0 := visited, queue, wit;
      visited, queue, wit := Expand(g, s, cur, visited, queue[1..], wit);
      SearchStep(g, s, t, visited0, q0, wit0, done, level, front, polls, visited, queue, wit);
      done, level, front := done + {cur.pos}, NextLevel(level, front, |queue|), NextFront(front, |queue|);
      polls := polls + 1;
    }
    Exhausted(g, s, t, visited, wit, done, level, front, polls);
    r := -1;
  }
}
